=== FILE: README.md ===
# Garmin Connect export: a Dafny model

`gcexport.py` exports a user's activities from Garmin Connect to local files. It
logs in through the single-sign-on form and pulls the service ticket out of the
response. It then pages through the activity search in requests of at most 100
activities. Each activity is saved as GPX, TCX or the original upload (a ZIP
archive). Activities already on disk are skipped, so a run that died can be
restarted without repeating the downloads it completed. Under `all` and a numeric
count the rerun goes on past them to the missing ones. Under `new` the rerun stops
at the first activity on disk, so after a failed `new` run the activities behind
the one that failed are never fetched. With `-f original -u` the downloaded
archive is replaced by its contents. A rerun then skips the activity only if the
archive held `<id>.fit`, which depends on the archive and is not modelled; the
model promises no skip for such activities.

This project models the decision logic of `GarminConnect.login` and
`GarminConnect.download`:

- ticket extraction;
- the pagination arithmetic, including the one-time `totalFound` probe for
  `all` and `new`;
- file and URL naming;
- the skip and early-stop rules;
- the tolerated HTTP errors;
- the GPX validation abort;
- the unzip trigger.

The modules are:

- `Common`: bytes, `Option`/`Result`, the errors a run can end with, and server replies.
- `Naming`: formats, `str(activityId)`, data-file, `.fit`-sibling and download-URL naming.
- `Ticket`: the ticket regular expression and the post-authentication URL.
- `Recovery`: the 500/404 recovery rule and the unzip predicate.
- `Exporter`: the whole `download` run as pure functions of an environment `Env`.
  `Env` holds the server's replies and the XML/ZIP parsers. The run changes a
  `World`: the files on disk, plus the search, download and unpack logs.
  Lemmas about the run live here too.
- `Client`: the `GarminConnect` class. Its fields are updated step by step by
  `Login` and `Download` and their loops. Each method is proved to end in exactly
  the state the pure functions give, so the `Exporter` lemmas hold of the class.

## Model

| member | source | states |
|---|---|---|
| Naming.ParseFormat | gcexport.py:172-183 | a recognised format string is exactly that format's name; anything other than `gpx`, `tcx`, `original` is refused |
| Naming.FormatRoundTrip | gcexport.py:172-183 | each format is recognised under its own name and under no other string |
| Naming.Decimal | gcexport.py:173-181 | `str(id)` is a non-empty string of digits, one character long exactly for ids below 10 |
| Naming.DecimalValue | gcexport.py:173-181 | the digits of `str(id)` denote the id, and only `0` starts with a zero |
| Naming.DecimalOfDigits | gcexport.py:173-181 | any digit string without a leading zero is `str` of the number it denotes, so `Decimal` is exactly Python's rendering |
| Naming.DecimalInjective | gcexport.py:173-181 | distinct ids have distinct decimal renderings |
| Naming.Destination | gcexport.py:172-181 | only the original format has a `.fit` sibling to check |
| Naming.DataFileShape | gcexport.py:172-181 | the data file is `<directory>/activity_<id>` plus `.gpx`, `.tcx` or `.zip`; the sibling is `<directory>/<id>.fit` |
| Naming.DataFileInjective | gcexport.py:173-179 | two activities never share a data file |
| Naming.ServiceUrlMarks | gcexport.py:48-50 | proof helper for `UrlTextInjective`: the three service URLs have different lengths or differ at fixed positions |
| Naming.UrlText | gcexport.py:172-181 | no contract of its own: the download URL is the format's service URL, `str(id)`, then `?full=true` for GPX and TCX; `UrlExample`, `ServiceUrlMarks` and `UrlTextInjective` state its properties |
| Naming.UrlTextInjective | gcexport.py:174-181 | the download URL text determines both the format and the activity id |
| Naming.FitSiblingInjective | gcexport.py:180 | two activities never share a `.fit` sibling |
| Naming.FitSiblingNeverDataFile | gcexport.py:179-180 | a `.fit` sibling is never the data file of any activity in any format |
| Naming.NamingExample | gcexport.py:172-179 | activity 12345 in `d` is saved as `d/activity_12345.gpx` / `.tcx` / `.zip` |
| Naming.FitSiblingExample | gcexport.py:180 | the sibling of original activity 12345 in `d` is `d/12345.fit` |
| Naming.UrlExample | gcexport.py:174 | the GPX URL of activity 12345 is the export service URL, `12345`, then `?full=true` |
| Ticket.RunLength | gcexport.py:92 | the length of the maximal run of `[-\w]` characters from a position |
| Ticket.FragmentIsMaximalRun | gcexport.py:92 | a matching group is always the whole run of ticket characters after `?ticket=` |
| Ticket.TicketAt | gcexport.py:92 | the pattern fits at a position exactly when a ticket is returned there, and that ticket is the text of the group |
| Ticket.LastFragment | gcexport.py:92-93 | the greedy `.*` settles on the last position where the pattern fits, and no later position fits |
| Ticket.ExtractTicket | gcexport.py:92-96 | no ticket exactly when no `?ticket=…";` fragment exists; otherwise the group of the last fragment, non-empty and made of ticket characters |
| Ticket.RegexMatchUnique | gcexport.py:92-96 | the reported match is unique |
| Ticket.PostAuthUrl | gcexport.py:101 | the post-auth URL is the base URL, `ticket=`, then the ticket |
| Ticket.SingleFragment | gcexport.py:92-96 | with one fragment and no later `?`, that fragment's group is the ticket |
| Ticket.TicketExample | gcexport.py:92-96 | `x?ticket=ABC-123";y` yields `ABC-123` |
| Ticket.NoMarkNoTicket | gcexport.py:94-95 | a response without `?` yields no ticket |
| Ticket.NoTicketExample | gcexport.py:94-95 | a page without a ticket yields none |
| Recovery.Tolerated | gcexport.py:207-219 | no contract of its own: HTTP 500 under TCX and 404 under original are the tolerated errors; `Recover` states what follows from them |
| Recovery.Recover | gcexport.py:204-221 | good bytes are kept verbatim; HTTP 500 under TCX and 404 under original give an empty file; every other error aborts with that error |
| Recovery.LastThree | gcexport.py:240 | `s[-3:]`: the last three characters, or all of a shorter string |
| Recovery.Lower | gcexport.py:240 | `.lower()` character by character, keeping the length |
| Recovery.ShouldUnzip | gcexport.py:238-240 | no contract of its own: unpacking is attempted for an original download with some bytes, unzip set and a name ending in `zip` in any case; `UnzipOriginal` and `DownloadEffects` state its properties |
| Recovery.UnzipOriginal | gcexport.py:238-240 | unpacking an original download is attempted exactly when unzip is set and the bytes are non-empty; the extension test always passes |
| Exporter.Present | gcexport.py:185-196 | no contract of its own: the data file, or for the original format the `.fit` sibling, is on disk; `SkipExisting`, `PresentMonotone` and `OtherStaysAbsent` state its properties |
| Exporter.ProcessActivity | gcexport.py:172-247 | no contract of its own: one pass of the `for` body; `UnknownFormatAborts`, `SkipExisting`, `DownloadEffects`, `ProcessActivityMarks`, `AbsentIsFetched` and `ProcessActivityNoRefetch` state what it does |
| Exporter.ProcessActivities | gcexport.py:149-251 | no contract of its own: the `for` loop over a page until an activity ends the run; `ProcessActivitiesMarks`, `NewReturnsAtFirstPresent`, `ProcessActivitiesQuiet` and `ProcessActivitiesNoRefetch` state what it does |
| Exporter.SearchPage | gcexport.py:134-146 | no contract of its own: one search request and its page; `SearchPageSearches`, `SearchPageMarks` and `SearchPageQuiet` state what it does |
| Exporter.Paginate | gcexport.py:127-252 | no contract of its own: the `while` loop; `PaginateFollowsSchedule`, `PaginateKeepsFiles`, `PaginateSavesAll` and `PaginateNoRefetch` state what it does |
| Exporter.PageSize | gcexport.py:128-132 | a page asks for at most what remains and at most 100, and at least 1 while the loop runs |
| Exporter.Setup | gcexport.py:107-113 | a missing directory is an error only under `new`; otherwise the directory exists afterwards and nothing else is created |
| Exporter.Download | gcexport.py:105-124 | a refused run changes nothing; every other run leaves the output directory in place |
| Exporter.ScheduleShape | gcexport.py:127-134 | the k-th search starts at offset done + 100k and asks for min(100, remaining) |
| Exporter.ScheduleTotals | gcexport.py:127-134 | the limits sum to exactly what remains, in ceil(remaining/100) requests |
| Exporter.ScheduleExample | gcexport.py:127-134 | a count of 250 is fetched as (0,100), (100,100), (200,50) |
| Exporter.ExpectedLimitsBounded | gcexport.py:128-132 | every expected search asks for 1 to 100 activities |
| Exporter.ProcessActivitiesKeepsSearches | gcexport.py:149-251 | processing activities issues no search request |
| Exporter.SearchPageSearches | gcexport.py:134-136 | a page adds exactly its own search request to the log |
| Exporter.PaginateFollowsSchedule | gcexport.py:127-252 | the loop's searches are a prefix of the schedule, and the whole schedule when it completes |
| Exporter.SearchesFollowSchedule | gcexport.py:115-143 | a run's searches are a prefix of the expected ones (the probe (0,1), then the schedule to `totalFound`), and all of them when it completes |
| Exporter.RunLimitsBounded | gcexport.py:127-136 | every search a run issues asks for between 1 and 100 activities |
| Exporter.ProbeFirst | gcexport.py:115-121 | under `all` and `new` the first search is for one activity at offset 0 |
| Exporter.NumericCountSearchesExactly | gcexport.py:123-134 | a completed numeric-count run requests pages at offsets 0, 100, 200, … whose limits add up to the count |
| Exporter.SkipExisting | gcexport.py:185-196 | an activity whose data file (or `.fit` sibling) exists changes nothing; it ends the run under `new` and moves on otherwise |
| Exporter.DownloadEffects | gcexport.py:198-247 | a missing activity is fetched once from its URL; unrecovered errors abort with nothing written; tolerated errors write an empty file; good bytes are saved verbatim, a GPX that does not parse aborts, and an unpacked archive is removed; the unpack log changes only when an archive is unpacked |
| Exporter.PresentMonotone | gcexport.py:185-196 | an activity on disk stays on disk as files are added |
| Exporter.SavedMonotone | gcexport.py:185-196 | a saved activity (on disk, or its archive unpacked) stays saved as files and unpacked archives are added |
| Exporter.ProcessActivityMarks | gcexport.py:185-247 | processing loses no file (an unpacked archive is one it has just written), issues at most one fetch, and leaves the activity saved (on disk, or its archive unpacked) unless it aborts; only `new` returns |
| Exporter.ProcessActivitiesMarks | gcexport.py:149-251 | a page loses no file; unless it aborts its first activity is saved (on disk, or its archive unpacked); when it completes all are; it ends early only under `new` |
| Exporter.NewStopsAtPresent | gcexport.py:185-196 | under `new`, in every format and with or without unzip, a page holding an activity on disk ends the run, with at most the activities before it downloaded |
| Exporter.ProcessActivityNewKeys | gcexport.py:223-247 | processing an activity adds no file but its own data file |
| Exporter.OtherStaysAbsent | gcexport.py:172-196 | processing one activity never puts another activity, with a different id, on disk |
| Exporter.AbsentIsFetched | gcexport.py:185-205 | an activity not on disk never ends the run by `return`; unless the run aborts, it is downloaded once |
| Exporter.NewReturnsAtFirstPresent | gcexport.py:185-188 | under `new`, over distinct activities, the run downloads and saves exactly the activities before the first one on disk and returns there, unless one of those downloads aborts the run |
| Exporter.NewRunEndsOnPage | gcexport.py:185-196 | under `new`, such a page ends the run with exactly one more search request |
| Exporter.SearchPageMarks | gcexport.py:134-251 | a page loses no file and no unpack entry; unless it aborts, the search succeeded and the page's first activity is saved (on disk, or its archive unpacked); when the loop went through the whole page all its activities are saved; it ends early only under `new` with a non-empty page |
| Exporter.SearchPageQuiet | gcexport.py:185-196 | a page whose activities are on disk adds only its search request; under `new` a non-empty one ends the run |
| Exporter.PaginateKeepsFiles | gcexport.py:127-252 | the loop never loses a file or an unpack entry, with or without unzip, and only appends search requests |
| Exporter.PaginateSavesAll | gcexport.py:127-252 | once the target is fixed, a loop that completes had every search of the schedule succeed and left every activity on those pages saved (on disk, or its archive unpacked) |
| Exporter.ProbedLoopSavesAll | gcexport.py:115-252 | under `all` and `new`, a loop that completes saved every activity of the probe page and of every page of the schedule to its `totalFound` |
| Exporter.DownloadSavesAll | gcexport.py:105-252 | a run loses no file and no unpack entry; a completed run fetched every expected page (the probe, then the schedule) and saved every activity on them |
| Exporter.ProcessActivitiesQuiet | gcexport.py:185-196 | a page whose activities are on disk is passed over without a download or a write |
| Exporter.RerunFindsPage | gcexport.py:198-201 | with archives kept, a rerun finds each page the first run went through with its activities on disk |
| Exporter.PaginateRerun | gcexport.py:198-201 | with archives kept, the loop rerun over the files the first run left downloads and writes nothing and does not fail |
| Exporter.DownloadTwice | gcexport.py:198-201 | with archives kept, a run that did not fail, rerun with the same arguments, downloads nothing, changes no file and does not fail |
| Exporter.ProcessActivityNoRefetch | gcexport.py:185-205 | while any activity is processed, one already on disk stays there and is not downloaded |
| Exporter.ProcessActivitiesNoRefetch | gcexport.py:149-205 | while a page is processed, an activity on disk stays there and is not downloaded |
| Exporter.PaginateNoRefetch | gcexport.py:127-252 | the loop never downloads an activity that was on disk when it started |
| Exporter.ResumeSkipsPresent | gcexport.py:198-201 | a run never downloads an activity already on disk when it starts, whatever the count, the unzip setting or how the run ends |
| Exporter.GapFirstRun | gcexport.py:185-221 | in the example, a `new` run over an empty directory saves activity 3 and fails downloading activity 2 |
| Exporter.NewRerunLeavesGap | gcexport.py:185-201 | in the example, the `new` rerun after that failure stops at activity 3 with no download, so activities 2 and 1 are never saved |
| Exporter.UnknownFormatAborts | gcexport.py:182-183 | any format other than `gpx`, `tcx`, `original` raises at the activity, before any fetch or write, even if it is on disk |
| Exporter.UnknownFormatPage | gcexport.py:134-183 | under an unknown format a page adds only its search request and fails exactly when its search succeeded with an activity |
| Exporter.UnknownFormatPaginate | gcexport.py:127-183 | under an unknown format the loop fetches, writes and unpacks nothing, never stops early, and completes over empty pages |
| Exporter.UnknownFormatRun | gcexport.py:105-183 | under an unknown format a run fails after its first search when that page holds an activity, completes when all pages are empty, and never fetches or writes |
| Client.LoginRun | gcexport.py:84-101 | a login succeeds exactly when all three requests succeed and a ticket was found, and then it sent that ticket; the post-auth request is issued exactly when a ticket was found |
| Client.LoginTicket | gcexport.py:92-101 | a successful login used the ticket the regular expression selects and sent exactly that ticket |
| Client.NoTicketNoPostAuth | gcexport.py:94-95 | without a ticket the login fails after two requests, before the post-auth request |
| Client.GarminConnect.constructor | gcexport.py:52-54 | a new session starts with empty request logs over the given files |
| Client.GarminConnect.Login | gcexport.py:56-101 | the method appends the requests `LoginRun` issues and returns its result |
| Client.GarminConnect.ProcessActivity | gcexport.py:149-251 | one loop pass leaves exactly the state and step of the specification |
| Client.GarminConnect.ProcessActivities | gcexport.py:149-251 | the `for` loop leaves exactly the state and step of the specification |
| Client.GarminConnect.SearchPage | gcexport.py:134-251 | one search and its page leave exactly the specified state |
| Client.GarminConnect.Turn | gcexport.py:127-252 | one `while` turn either ends the run as specified or leaves a state from which the rest of the loop is unchanged; the loop measure decreases |
| Client.GarminConnect.FetchPages | gcexport.py:124-252 | the `while` loop ends in exactly the state and step of the specification |
| Client.GarminConnect.Download | gcexport.py:105-252 | the method ends with the directories, files, logs and outcome of the specification and issues no login request |

## Left out

- HTTP transport, the cookie jar and URL encoding are not modelled. Server replies are functions in `Env`. The login form fields and the login and search URLs are not modelled.
- The login-page response is not used; only whether it succeeded is.
- Request order: searches, downloads and unpacks go to three separate logs, so their relative order is not recorded.
- JSON decoding is not modelled. A search reply is a list of activity ids plus `totalFound`. As written, line 146 iterates the decoded reply object itself rather than a list inside it; the model follows the evident intent.
- Activity names, start times, durations and distances are printed (lines 152-170) and not modelled. Console output is left out. Printing can also raise and abort the run. A missing `activityName` raises KeyError (line 153). A null `duration` makes `timedelta` raise (line 163). A null `startTimeLocal` or `distance` raises TypeError (lines 158, 168). These aborts are not modelled: every activity is assumed printable.
- The activity id is a non-negative integer rendered by `Decimal`. Negative ids, string ids and a missing `activityId` key (KeyError at line 151) are not modelled.
- `int(count)` and `int(totalFound)` are not modelled: the count is a number or a sentinel, and `totalFound` is an integer.
- The test `if not login_ticket` (line 98) cannot fire, because the group has at least one character. The model does not represent it.
- ExtractTicket: `\w` is ASCII letters, digits and underscore. Unicode word characters are not modelled.
- Lower: only ASCII upper-case letters are folded.
- GPX validation: the XML parse is an oracle, `Env.parsesAsXml`. A failed parse raises and aborts the run. The track-point count only chooses a printed message, so it is left out.
- ZIP extraction is an oracle, `Env.opensAsZip`. The archive is either unpacked and removed, or the run aborts. The extracted files are not modelled.
- DownloadTwice: proved only when original archives are not unpacked. After unpacking, whether the `.fit` sibling appears depends on the archive's contents, which are not modelled.
- RerunFindsPage: proved only when original archives are not unpacked, for the reason given for DownloadTwice. With unzip, the first run leaves the activity unpacked rather than on disk (`Exporter.ProcessActivitiesMarks`).
- PaginateRerun: proved only when original archives are not unpacked, for the reason given for DownloadTwice.
- Filesystem errors (open, write, mkdir) and path normalisation are not modelled. Files are a map from path strings to bytes.
- Download URLs are recorded as a (format, id) value. `UrlText` gives the text, and `Naming.UrlTextInjective` proves that no information is lost.
- The command line (argparse, getpass, the password prompt) and the top-level exception handler around `login` and `download` are outside this core.

=== FILE: client.dfy ===
/** The `GarminConnect` object (gcexport.py:44-253): the session's request log and
    the files on disk as fields, `login` and `download` as methods that update them
    step by step. Each method is proved to end in exactly the state and result that
    the pure specification (module Exporter, and `LoginRun` below) gives for the
    same inputs, so every lemma about the specification holds of the methods. */
module Client {
  import opened Common
  import opened Naming
  import opened Ticket
  import opened Recovery
  import opened Exporter

  /** The requests `login` issues: the login page, the credentials form, and the
      post-authentication URL carrying the ticket. */
  datatype AuthRequest = LoginPage | Credentials(username: string, password: string) | PostAuth(url: string)

  /** What a login attempt does: the requests it issued and how it ended. */
  datatype LoginAttempt = LoginAttempt(requests: seq<AuthRequest>, result: Result<string>)

  /** `GarminConnect.login` (gcexport.py:84-101): fetch the login page, submit the
      credentials, extract the ticket from the response, and complete the login
      with the post-authentication URL. A response without a ticket ends the
      attempt before the post-authentication request. */
  function LoginRun(env: Env, username: string, password: string): (r: LoginAttempt)
    ensures r.result.Success? <==>
      && env.loginPage.Ok? && env.submit(username, password).Ok?
      && ExtractTicket(env.submit(username, password).body).Some?
      && env.postAuth(PostAuthUrl(ExtractTicket(env.submit(username, password).body).value)).Ok?
    ensures r.result.Success? ==> r.requests == [LoginPage, Credentials(username, password), PostAuth(PostAuthUrl(r.result.value))]
    ensures (exists u :: PostAuth(u) in r.requests) <==>
      env.loginPage.Ok? && env.submit(username, password).Ok? && ExtractTicket(env.submit(username, password).body).Some?
  {
    if !env.loginPage.Ok? then LoginAttempt([LoginPage], Failure(ReplyError(env.loginPage)))
    else
      var response := env.submit(username, password);
      if !response.Ok? then LoginAttempt([LoginPage, Credentials(username, password)], Failure(ReplyError(response)))
      else
        match ExtractTicket(response.body)
        case None => LoginAttempt([LoginPage, Credentials(username, password)], Failure(NoTicket))
        case Some(ticket) =>
          var url := PostAuthUrl(ticket);
          var requests := [LoginPage, Credentials(username, password), PostAuth(url)];
          assert PostAuth(url) in requests;
          var done := env.postAuth(url);
          if done.Ok? then LoginAttempt(requests, Success(ticket)) else LoginAttempt(requests, Failure(ReplyError(done)))
  }

  /** A successful login found the ticket the regular expression selects: non-empty,
      made of ticket characters, right after the last `?ticket=` that is followed by
      such a run and `";`; and it sent exactly that ticket to the post-authentication
      URL. */
  lemma LoginTicket(env: Env, username: string, password: string)
    requires LoginRun(env, username, password).result.Success?
    ensures var t := LoginRun(env, username, password).result.value;
      var response := env.submit(username, password).body;
      && |t| > 0 && (forall i :: 0 <= i < |t| ==> IsTicketChar(t[i]))
      && (exists p :: RegexMatch(response, p, |t|) && t == response[p + 8..p + 8 + |t|])
      && LoginRun(env, username, password).requests[2].url[|PostAuthUrlBase| + 7..] == t
  {
  }

  /** Without a ticket in the response the login fails with `NoTicket`, after the
      login page and the credentials and before any post-authentication request. */
  lemma NoTicketNoPostAuth(env: Env, username: string, password: string)
    requires env.loginPage.Ok? && env.submit(username, password).Ok?
    requires forall p, k :: !FragmentAt(env.submit(username, password).body, p, k)
    ensures LoginRun(env, username, password) == LoginAttempt([LoginPage, Credentials(username, password)], Failure(NoTicket))
  {
  }

  class GarminConnect {
    /** The service and the libraries, as seen by this session. */
    const env: Env
    /** The directories that exist. */
    var dirs: set<string>
    /** The regular files that exist, with their contents. */
    var files: map<string, seq<byte>>
    var authRequests: seq<AuthRequest>
    var searches: seq<SearchRequest>
    var fetches: seq<Url>
    var unpacked: seq<string>

    constructor (env: Env, dirs: set<string>, files: map<string, seq<byte>>)
      ensures this.env == env && this.dirs == dirs && this.files == files
      ensures authRequests == [] && searches == [] && fetches == [] && unpacked == []
    {
      this.env := env;
      this.dirs := dirs;
      this.files := files;
      authRequests := [];
      searches := [];
      fetches := [];
      unpacked := [];
    }

    /** The part of the state that a download run changes. */
    function Snapshot(): World
      reads this
    {
      World(files, searches, fetches, unpacked)
    }

    method Login(username: string, password: string) returns (r: Result<string>)
      modifies this`authRequests
      ensures authRequests == old(authRequests) + LoginRun(env, username, password).requests
      ensures r == LoginRun(env, username, password).result
    {
      authRequests := authRequests + [LoginPage];
      if !env.loginPage.Ok? {
        return Failure(ReplyError(env.loginPage));
      }
      authRequests := authRequests + [Credentials(username, password)];
      var loginResponse := env.submit(username, password);
      if !loginResponse.Ok? {
        return Failure(ReplyError(loginResponse));
      }
      var loginTicket := ExtractTicket(loginResponse.body);
      if loginTicket.None? {
        return Failure(NoTicket);
      }
      // The `if not login_ticket` check of gcexport.py:98 cannot fire: the group is never empty.
      var url := PostAuthUrl(loginTicket.value);
      authRequests := authRequests + [PostAuth(url)];
      var done := env.postAuth(url);
      if !done.Ok? {
        return Failure(ReplyError(done));
      }
      return Success(loginTicket.value);
    }

    /** One pass of the `for activity in activities` loop. */
    method ProcessActivity(cfg: Config, activity: Activity) returns (step: Step)
      modifies this`files, this`searches, this`fetches, this`unpacked
      ensures Progress(Snapshot(), step) == Exporter.ProcessActivity(env, cfg, old(Snapshot()), activity)
    {
      var format := ParseFormat(cfg.fileFormat);
      if format.None? {
        return Abort(UnrecognizedFormat);
      }
      var f := format.value;
      var t := Destination(cfg.directory, f, activity.activityId);
      if t.dataFile in files {
        return SkipStep(cfg.count);
      }
      if f == Original && t.fitFile.value in files {
        return SkipStep(cfg.count);
      }
      fetches := fetches + [t.url];
      var data := Recover(f, env.fetch(t.url));
      if data.Failure? {
        return Abort(data.error);
      }
      files := files[t.dataFile := data.value];
      if f == Gpx {
        if !env.parsesAsXml(data.value) {
          return Abort(MalformedGpx);
        }
      } else if ShouldUnzip(f, data.value, cfg.unzip, t.dataFile) {
        if !env.opensAsZip(data.value) {
          return Abort(BadArchive);
        }
        files := files - {t.dataFile};
        unpacked := unpacked + [t.dataFile];
      }
      return Next;
    }

    /** The `for activity in activities` loop over one page: it ends the run at the
        first activity that returns or raises. */
    method ProcessActivities(cfg: Config, activities: seq<Activity>) returns (step: Step)
      modifies this`files, this`searches, this`fetches, this`unpacked
      ensures Progress(Snapshot(), step) == Exporter.ProcessActivities(env, cfg, old(Snapshot()), activities)
    {
      for i := 0 to |activities|
        invariant Exporter.ProcessActivities(env, cfg, Snapshot(), activities[i..])
                  == Exporter.ProcessActivities(env, cfg, old(Snapshot()), activities)
      {
        assert activities[i..][0] == activities[i] && activities[i..][1..] == activities[i + 1..];
        step := ProcessActivity(cfg, activities[i]);
        if step != Next {
          return;
        }
      }
      return Next;
    }

    /** One search request and the activities of the page it returns: the body of
        the `while` loop up to the offset update. */
    method SearchPage(cfg: Config, start: int, limit: int) returns (step: Step, reply: Reply<Page>)
      modifies this`files, this`searches, this`fetches, this`unpacked
      ensures reply == env.search(start, limit)
      ensures Progress(Snapshot(), step) == Exporter.SearchPage(env, cfg, old(Snapshot()), start, limit)
    {
      searches := searches + [SearchRequest(start, limit)];
      reply := env.search(start, limit);
      if !reply.Ok? {
        return Abort(ReplyError(reply)), reply;
      }
      step := ProcessActivities(cfg, reply.body.activities);
    }

    /** One turn of the `while` loop: the page size, the search, the one-time
        target update, the page's activities and the offset update. The rest of
        the run is the same before and after, unless the turn ended it. */
    method Turn(cfg: Config, totalDownloaded: int, totalToDownload: int, downloadAll: bool)
      returns (step: Step, done: int, target: int, all: bool)
      requires totalDownloaded < totalToDownload
      modifies this`files, this`searches, this`fetches, this`unpacked
      ensures step != Next ==> Progress(Snapshot(), step) == Paginate(env, cfg, old(Snapshot()), totalDownloaded, totalToDownload, downloadAll)
      ensures step == Next ==> Paginate(env, cfg, Snapshot(), done, target, all) == Paginate(env, cfg, old(Snapshot()), totalDownloaded, totalToDownload, downloadAll)
      ensures step == Next ==> !all && (downloadAll || target - done < totalToDownload - totalDownloaded)
    {
      var numToDownload;
      if totalToDownload - totalDownloaded > 100 {
        numToDownload := 100;
      } else {
        numToDownload := totalToDownload - totalDownloaded;
      }
      PaginateStep(env, cfg, Snapshot(), totalDownloaded, totalToDownload, downloadAll);
      var result;
      step, result := SearchPage(cfg, totalDownloaded, numToDownload);
      target, all := totalToDownload, downloadAll;
      if step == Next && all {
        target := result.body.totalFound;
        all := false;
      }
      done := totalDownloaded + numToDownload;
    }

    /** The `while total_downloaded < total_to_download` loop, from offset 0. */
    method FetchPages(cfg: Config, target: int, all: bool) returns (step: Step)
      modifies this`files, this`searches, this`fetches, this`unpacked
      ensures Progress(Snapshot(), step) == Paginate(env, cfg, old(Snapshot()), 0, target, all)
    {
      var totalToDownload, downloadAll := target, all;
      var totalDownloaded := 0;
      ghost var goal := Paginate(env, cfg, Snapshot(), 0, target, all);
      while totalDownloaded < totalToDownload
        invariant Paginate(env, cfg, Snapshot(), totalDownloaded, totalToDownload, downloadAll) == goal
        decreases downloadAll, totalToDownload - totalDownloaded
      {
        step, totalDownloaded, totalToDownload, downloadAll := Turn(cfg, totalDownloaded, totalToDownload, downloadAll);
        if step != Next {
          return;
        }
      }
      return Next;
    }

    method Download(directory: string, fileFormat: string, count: Count, unzip: bool) returns (outcome: Outcome)
      modifies this
      ensures Run(dirs, Snapshot(), outcome) == Exporter.Download(env, Config(directory, fileFormat, count, unzip), old(dirs), old(Snapshot()))
      ensures authRequests == old(authRequests)
    {
      var cfg := Config(directory, fileFormat, count, unzip);
      if directory !in dirs && count == New {
        return Failed(MissingDirectory);
      }
      if directory !in dirs {
        dirs := dirs + {directory};
      }
      var step;
      if count == All || count == New {
        // A single activity first; its reply's totalFound becomes the target, once.
        step := FetchPages(cfg, 1, true);
      } else {
        step := FetchPages(cfg, count.n, false);
      }
      match step
      case Next => return Completed;
      case Return => return Stopped;
      case Abort(e) => return Failed(e);
    }
  }
}

=== FILE: common.dfy ===
/** Values shared by every part of the exporter model: bytes, optional values,
    results carrying the exporter's errors, and the replies of the environment. */
module Common {

  /** One octet of a downloaded file. */
  newtype byte = x: int | 0 <= x < 256

  datatype Option<+T> = None | Some(value: T)

  /** The exceptions that end a login or an export run. */
  datatype Error =
    | UnrecognizedFormat     // 'Unrecognized file format.'
    | NoTicket               // no ticket in the login response
    | MissingDirectory       // count 'new' with an output directory that does not exist
    | HttpFailure(code: int) // an HTTP error status nobody recovers from
    | TransportFailure       // any other failure of a request or of decoding its reply
    | MalformedGpx           // the GPX bytes are not well-formed XML
    | BadArchive             // the original-format bytes are not a readable ZIP archive

  datatype Result<+T> = Success(value: T) | Failure(error: Error)

  /** What one HTTP request gives back: a body (status 200, decoded),
      an HTTP error status, or some other failure (network, non-200 success
      code, undecodable body). */
  datatype Reply<+T> = Ok(body: T) | HttpError(code: int) | Broken

  /** The error with which a request that did not answer Ok ends the run. */
  function ReplyError<T>(reply: Reply<T>): (e: Error)
    requires !reply.Ok?
    ensures e.HttpFailure? <==> reply.HttpError?
    ensures reply.HttpError? ==> e.code == reply.code
  {
    if reply.HttpError? then HttpFailure(reply.code) else TransportFailure
  }
}

=== FILE: exporter.dfy ===
/** The export run of `GarminConnect.download` (gcexport.py:105-253) as pure
    functions of the environment and of the state the run changes: the files on
    disk and the log of requests it has issued. The `GarminConnect` class in
    module Client runs the same steps imperatively and is proved equal to these. */
module Exporter {
  import opened Common
  import opened Naming
  import opened Recovery

  /** `-c/--count`: a number of recent activities, or the sentinels 'all' and 'new'. */
  datatype Count = All | New | Number(n: int)

  /** The arguments of `download`. */
  datatype Config = Config(directory: string, fileFormat: string, count: Count, unzip: bool)

  /** One search result: only its id steers the run. */
  datatype Activity = Activity(activityId: nat)

  /** A decoded search reply: the activities of the page and the server's `totalFound`. */
  datatype Page = Page(activities: seq<Activity>, totalFound: int)

  /** A search request with its `start` and `limit` parameters. */
  datatype SearchRequest = SearchRequest(start: int, limit: int)

  /** The environment: the service's replies and the two parsing libraries. */
  datatype Env = Env(
    loginPage: Reply<string>,
    submit: (string, string) -> Reply<string>,
    postAuth: string -> Reply<string>,
    search: (int, int) -> Reply<Page>,
    fetch: Url -> Reply<seq<byte>>,
    parsesAsXml: seq<byte> -> bool,
    opensAsZip: seq<byte> -> bool)

  /** What a run changes: the regular files by path, the search and download
      requests in the order issued, and the archives unpacked (and removed). */
  datatype World = World(
    files: map<string, seq<byte>>,
    searches: seq<SearchRequest>,
    fetches: seq<Url>,
    unpacked: seq<string>)

  /** How the processing of one activity ends: go on with the next one (`continue`
      or normal completion), end the whole run (`return`), or raise. */
  datatype Step = Next | Return | Abort(error: Error)

  datatype Progress = Progress(world: World, step: Step)

  /** The activity's data file, or for the original format its `.fit` sibling,
      is already on disk. */
  predicate Present(files: map<string, seq<byte>>, cfg: Config, a: Activity)
  {
    match ParseFormat(cfg.fileFormat)
    case None => false
    case Some(f) =>
      var t := Destination(cfg.directory, f, a.activityId);
      t.dataFile in files || (t.fitFile.Some? && t.fitFile.value in files)
  }

  /** A skipped activity ends the run under 'new' and moves on otherwise. */
  function SkipStep(count: Count): Step
  {
    if count == New then Return else Next
  }

  /** The body of the `for activity in activities` loop (gcexport.py:149-251). */
  function ProcessActivity(env: Env, cfg: Config, w: World, a: Activity): Progress
  {
    match ParseFormat(cfg.fileFormat)
    case None => Progress(w, Abort(UnrecognizedFormat))
    case Some(f) =>
      var t := Destination(cfg.directory, f, a.activityId);
      if t.dataFile in w.files then Progress(w, SkipStep(cfg.count))
      else if f == Original && t.fitFile.value in w.files then Progress(w, SkipStep(cfg.count))
      else
        var w1 := w.(fetches := w.fetches + [t.url]);
        match Recover(f, env.fetch(t.url))
        case Failure(e) => Progress(w1, Abort(e))
        case Success(data) =>
          var w2 := w1.(files := w1.files[t.dataFile := data]);
          if f == Gpx then
            if env.parsesAsXml(data) then Progress(w2, Next) else Progress(w2, Abort(MalformedGpx))
          else if ShouldUnzip(f, data, cfg.unzip, t.dataFile) then
            if env.opensAsZip(data) then
              Progress(w2.(files := w2.files - {t.dataFile}, unpacked := w2.unpacked + [t.dataFile]), Next)
            else
              Progress(w2, Abort(BadArchive))
          else
            Progress(w2, Next)
  }

  /** The activities of one page, in the order the server gave them, until one of
      them ends the run. */
  function ProcessActivities(env: Env, cfg: Config, w: World, acts: seq<Activity>): Progress
    decreases |acts|
  {
    if acts == [] then Progress(w, Next)
    else
      var p := ProcessActivity(env, cfg, w, acts[0]);
      if p.step == Next then ProcessActivities(env, cfg, p.world, acts[1..]) else p
  }

  /** `num_to_download`: 100, or whatever remains if less. */
  function PageSize(done: int, target: int): (n: int)
    ensures done < target ==> 1 <= n <= 100
    ensures n <= target - done
  {
    if target - done > 100 then 100 else target - done
  }

  /** One pass of the `while` body up to the offset update: the search request for
      `n` activities at offset `done`, then the activities of the page it returns. */
  function SearchPage(env: Env, cfg: Config, w: World, done: int, n: int): Progress
  {
    var w1 := w.(searches := w.searches + [SearchRequest(done, n)]);
    var reply := env.search(done, n);
    if reply.Ok? then ProcessActivities(env, cfg, w1, reply.body.activities)
    else Progress(w1, Abort(ReplyError(reply)))
  }

  /** The target after a page: under `download_all`, the `totalFound` of its reply. */
  function NextTarget(env: Env, done: int, n: int, target: int, all: bool): int
  {
    var reply := env.search(done, n);
    if all && reply.Ok? then reply.body.totalFound else target
  }

  /** The `while total_downloaded < total_to_download` loop (gcexport.py:127-252).
      `all` is `download_all`: the first page's `totalFound` replaces the target. */
  function Paginate(env: Env, cfg: Config, w: World, done: int, target: int, all: bool): Progress
    decreases all, target - done
  {
    if done >= target then Progress(w, Next)
    else
      var n := PageSize(done, target);
      var p := SearchPage(env, cfg, w, done, n);
      if p.step == Next then Paginate(env, cfg, p.world, done + n, NextTarget(env, done, n, target, all), false) else p
  }

  /** One turn of the loop, from a state where it runs. */
  lemma PaginateStep(env: Env, cfg: Config, w: World, done: int, target: int, all: bool)
    requires done < target
    ensures var n := PageSize(done, target);
      var p := SearchPage(env, cfg, w, done, n);
      Paginate(env, cfg, w, done, target, all)
      == if p.step == Next then Paginate(env, cfg, p.world, done + n, NextTarget(env, done, n, target, all), false) else p
  {
  }

  /** The directory bootstrap (gcexport.py:107-113): under 'new' a missing directory
      is an error; otherwise the directory exists afterwards. */
  function Setup(dirs: set<string>, directory: string, count: Count): (r: Result<set<string>>)
    ensures r.Failure? <==> count == New && directory !in dirs
    ensures r.Failure? ==> r.error == MissingDirectory
    ensures r.Success? ==> directory in r.value && dirs <= r.value && r.value - dirs <= {directory}
  {
    if directory !in dirs && count == New then Failure(MissingDirectory)
    else if directory !in dirs then Success(dirs + {directory})
    else Success(dirs)
  }

  /** How `download` ends: normally, by the 'new' early stop, or by an exception. */
  datatype Outcome = Completed | Stopped | Failed(error: Error)

  function OutcomeOf(step: Step): Outcome
  {
    match step
    case Next => Completed
    case Return => Stopped
    case Abort(e) => Failed(e)
  }

  /** The whole run: the directories, the files and logs afterwards, and how it ended. */
  datatype Run = Run(dirs: set<string>, world: World, outcome: Outcome)

  /** `GarminConnect.download(directory, fileFormat, count, unzip)`. */
  function Download(env: Env, cfg: Config, dirs: set<string>, w: World): (r: Run)
    ensures cfg.count == New && cfg.directory !in dirs ==> r == Run(dirs, w, Failed(MissingDirectory))
    ensures !(cfg.count == New && cfg.directory !in dirs) ==> r.dirs == dirs + {cfg.directory}
  {
    match Setup(dirs, cfg.directory, cfg.count)
    case Failure(e) => Run(dirs, w, Failed(e))
    case Success(dirs') =>
      var p := if cfg.count.Number? then Paginate(env, cfg, w, 0, cfg.count.n, false)
               else Paginate(env, cfg, w, 0, 1, true);
      Run(dirs', p.world, OutcomeOf(p.step))
  }

  // ---------------------------------------------------------------------------
  // The search requests: page sizes, offsets, and the one-time target change.
  // ---------------------------------------------------------------------------

  /** The search requests an uninterrupted loop issues from `done` to a fixed `target`. */
  function Schedule(done: int, target: int): seq<SearchRequest>
    decreases target - done
  {
    if done >= target then []
    else
      var n := PageSize(done, target);
      [SearchRequest(done, n)] + Schedule(done + n, target)
  }

  function SumLimits(reqs: seq<SearchRequest>): int
  {
    if reqs == [] then 0 else reqs[0].limit + SumLimits(reqs[1..])
  }

  /** The k-th request starts at `done + 100 k` and asks for `min(100, remaining)`
      activities, between 1 and 100. */
  lemma {:induction false} ScheduleShape(done: int, target: int, k: nat)
    requires k < |Schedule(done, target)|
    ensures Schedule(done, target)[k] == SearchRequest(done + 100 * k, PageSize(done + 100 * k, target))
    ensures done + 100 * k < target
    ensures 1 <= Schedule(done, target)[k].limit <= 100
    decreases k
  {
    var n := PageSize(done, target);
    if k > 0 {
      ScheduleShape(done + n, target, k - 1);
    }
  }

  /** The limits add up to exactly what remains, in `ceil(remaining / 100)` requests. */
  lemma {:induction false} ScheduleTotals(done: int, target: int)
    requires done <= target
    ensures SumLimits(Schedule(done, target)) == target - done
    ensures |Schedule(done, target)| == (target - done + 99) / 100
    decreases target - done
  {
    if done < target {
      var n := PageSize(done, target);
      ScheduleTotals(done + n, target);
      assert Schedule(done, target)[1..] == Schedule(done + n, target);
    }
  }

  /** Count 250 is fetched as (0, 100), (100, 100), (200, 50). */
  lemma ScheduleExample()
    ensures Schedule(0, 250) == [SearchRequest(0, 100), SearchRequest(100, 100), SearchRequest(200, 50)]
  {
    assert Schedule(250, 250) == [];
    assert Schedule(200, 250) == [SearchRequest(200, 50)];
    assert Schedule(100, 250) == [SearchRequest(100, 100), SearchRequest(200, 50)];
  }

  /** The search requests of an uninterrupted run: for a number, its schedule from 0;
      for 'all' and 'new', one request for a single activity, then the schedule from 1
      to the `totalFound` of that first reply, which is the only one consulted. */
  function ExpectedSearches(env: Env, count: Count): seq<SearchRequest>
  {
    if count.Number? then Schedule(0, count.n)
    else
      var first := env.search(0, 1);
      [SearchRequest(0, 1)] + if first.Ok? then Schedule(1, first.body.totalFound) else []
  }

  /** Every search request of any run asks for between 1 and 100 activities. */
  lemma ExpectedLimitsBounded(env: Env, count: Count, i: nat)
    requires i < |ExpectedSearches(env, count)|
    ensures 1 <= ExpectedSearches(env, count)[i].limit <= 100
  {
    if count.Number? {
      ScheduleShape(0, count.n, i);
    } else if i > 0 {
      var first := env.search(0, 1);
      ScheduleShape(1, first.body.totalFound, i - 1);
    }
  }

  lemma {:induction false} ProcessActivitiesKeepsSearches(env: Env, cfg: Config, w: World, acts: seq<Activity>)
    ensures ProcessActivities(env, cfg, w, acts).world.searches == w.searches
    decreases |acts|
  {
    if acts != [] {
      var p := ProcessActivity(env, cfg, w, acts[0]);
      if p.step == Next {
        ProcessActivitiesKeepsSearches(env, cfg, p.world, acts[1..]);
      }
    }
  }

  /** A page adds exactly its own search request to the log. */
  lemma SearchPageSearches(env: Env, cfg: Config, w: World, done: int, n: int)
    ensures SearchPage(env, cfg, w, done, n).world.searches == w.searches + [SearchRequest(done, n)]
  {
    var reply := env.search(done, n);
    if reply.Ok? {
      ProcessActivitiesKeepsSearches(env, cfg, w.(searches := w.searches + [SearchRequest(done, n)]), reply.body.activities);
    }
  }

  /** A log that first gained `req` and then a prefix of `rest` gained a prefix of
      `[req] + rest`. */
  lemma PrefixAfterRequest(before: seq<SearchRequest>, mid: seq<SearchRequest>, after: seq<SearchRequest>,
                           req: SearchRequest, rest: seq<SearchRequest>)
    requires mid == before + [req] && mid <= after && after[|mid|..] <= rest
    ensures before <= after && after[|before|..] <= [req] + rest
    ensures after[|mid|..] == rest ==> after[|before|..] == [req] + rest
  {
    assert after[|before|..] == [req] + after[|mid|..];
  }

  /** With a fixed target, the loop appends a prefix of the schedule, all of it when
      no activity stops or aborts the run. */
  lemma {:induction false} PaginateFollowsSchedule(env: Env, cfg: Config, w: World, done: int, target: int)
    ensures var r := Paginate(env, cfg, w, done, target, false);
      && w.searches <= r.world.searches
      && r.world.searches[|w.searches|..] <= Schedule(done, target)
      && (r.step == Next ==> r.world.searches[|w.searches|..] == Schedule(done, target))
    decreases target - done
  {
    if done < target {
      var n := PageSize(done, target);
      var p := SearchPage(env, cfg, w, done, n);
      PaginateStep(env, cfg, w, done, target, false);
      SearchPageSearches(env, cfg, w, done, n);
      assert Schedule(done, target) == [SearchRequest(done, n)] + Schedule(done + n, target);
      if p.step == Next {
        var rest := Paginate(env, cfg, p.world, done + n, target, false);
        PaginateFollowsSchedule(env, cfg, p.world, done + n, target);
        PrefixAfterRequest(w.searches, p.world.searches, rest.world.searches, SearchRequest(done, n), Schedule(done + n, target));
      }
    }
  }

  /** The search requests of a run are a prefix of the expected ones, and all of
      them when the run completes; a run refused for its directory issues none. */
  lemma SearchesFollowSchedule(env: Env, cfg: Config, dirs: set<string>, w: World)
    ensures var r := Download(env, cfg, dirs, w);
      && w.searches <= r.world.searches
      && r.world.searches[|w.searches|..] <= ExpectedSearches(env, cfg.count)
      && (r.outcome == Completed ==> r.world.searches[|w.searches|..] == ExpectedSearches(env, cfg.count))
  {
    var r := Download(env, cfg, dirs, w);
    if Setup(dirs, cfg.directory, cfg.count).Success? {
      if cfg.count.Number? {
        PaginateFollowsSchedule(env, cfg, w, 0, cfg.count.n);
      } else {
        var p := SearchPage(env, cfg, w, 0, 1);
        SearchPageSearches(env, cfg, w, 0, 1);
        if p.step == Next {
          PaginateFollowsSchedule(env, cfg, p.world, 1, NextTarget(env, 0, 1, 1, true));
          assert r.world.searches[|w.searches|..] == [SearchRequest(0, 1)] + r.world.searches[|p.world.searches|..];
        }
      }
    }
  }

  /** Every search request a run issues asks for between 1 and 100 activities. */
  lemma RunLimitsBounded(env: Env, cfg: Config, dirs: set<string>, w: World, i: nat)
    requires |w.searches| <= i < |Download(env, cfg, dirs, w).world.searches|
    ensures 1 <= Download(env, cfg, dirs, w).world.searches[i].limit <= 100
  {
    var s := Download(env, cfg, dirs, w).world.searches;
    SearchesFollowSchedule(env, cfg, dirs, w);
    assert s[i] == s[|w.searches|..][i - |w.searches|];
    ExpectedLimitsBounded(env, cfg.count, i - |w.searches|);
  }

  /** Under 'all' and 'new' the run that gets past the directory check starts with
      one request for a single activity at offset 0. */
  lemma ProbeFirst(env: Env, cfg: Config, dirs: set<string>, w: World)
    requires !cfg.count.Number? && (cfg.count == New ==> cfg.directory in dirs)
    ensures var s := Download(env, cfg, dirs, w).world.searches;
      |s| > |w.searches| && s[|w.searches|] == SearchRequest(0, 1)
  {
    var p := SearchPage(env, cfg, w, 0, 1);
    SearchPageSearches(env, cfg, w, 0, 1);
    if p.step == Next {
      PaginateFollowsSchedule(env, cfg, p.world, 1, NextTarget(env, 0, 1, 1, true));
    }
    assert p.world.searches[|w.searches|] == SearchRequest(0, 1);
  }

  /** For a numeric count N >= 0 a completed run issued requests at offsets 0, 100,
      200, ... whose limits add up to exactly N. */
  lemma NumericCountSearchesExactly(env: Env, cfg: Config, dirs: set<string>, w: World, k: nat)
    requires cfg.count.Number? && cfg.count.n >= 0
    requires Download(env, cfg, dirs, w).outcome == Completed
    ensures |w.searches| <= |Download(env, cfg, dirs, w).world.searches|
    ensures var s := Download(env, cfg, dirs, w).world.searches[|w.searches|..];
      && SumLimits(s) == cfg.count.n
      && (k < |s| ==> s[k].start == 100 * k && 1 <= s[k].limit <= 100)
  {
    SearchesFollowSchedule(env, cfg, dirs, w);
    ScheduleTotals(0, cfg.count.n);
    if k < |Schedule(0, cfg.count.n)| {
      ScheduleShape(0, cfg.count.n, k);
    }
  }

  // ---------------------------------------------------------------------------
  // One activity: skip, download, recover, save.
  // ---------------------------------------------------------------------------

  /** An activity already on disk is neither downloaded nor written; under 'new' it
      ends the run, otherwise the run goes on with the next activity. */
  lemma SkipExisting(env: Env, cfg: Config, w: World, a: Activity)
    requires Present(w.files, cfg, a)
    ensures ProcessActivity(env, cfg, w, a) == Progress(w, if cfg.count == New then Return else Next)
  {
  }

  /** An activity not on disk is requested once from its URL; a reply nobody
      recovers from aborts the run with nothing written, a tolerated 500 (TCX) or
      404 (original) leaves an empty file, and good bytes are saved verbatim. */
  lemma DownloadEffects(env: Env, cfg: Config, w: World, a: Activity, f: Format)
    requires ParseFormat(cfg.fileFormat) == Some(f)
    requires !Present(w.files, cfg, a)
    ensures var t := Destination(cfg.directory, f, a.activityId);
      var reply := env.fetch(t.url);
      var r := ProcessActivity(env, cfg, w, a);
      && r.world.fetches == w.fetches + [t.url]
      && r.world.searches == w.searches
      && (Recover(f, reply).Failure? ==> r.world.files == w.files && r.step == Abort(ReplyError(reply)))
      && (reply.HttpError? && Tolerated(f, reply.code) ==> r.world.files == w.files[t.dataFile := []] && r.step == Next)
      && (reply.Ok? && !ShouldUnzip(f, reply.body, cfg.unzip, t.dataFile) ==>
            r.world.files == w.files[t.dataFile := reply.body]
            && (r.step == Next <==> f != Gpx || env.parsesAsXml(reply.body)))
      && (reply.Ok? && ShouldUnzip(f, reply.body, cfg.unzip, t.dataFile) ==>
            if env.opensAsZip(reply.body)
            then r.world.files == w.files && r.world.unpacked == w.unpacked + [t.dataFile] && r.step == Next
            else r.world.files == w.files[t.dataFile := reply.body] && r.step == Abort(BadArchive))
      && (!(reply.Ok? && ShouldUnzip(f, reply.body, cfg.unzip, t.dataFile) && env.opensAsZip(reply.body)) ==>
            r.world.unpacked == w.unpacked)
  {
    var t := Destination(cfg.directory, f, a.activityId);
    var reply := env.fetch(t.url);
    if reply.Ok? && ShouldUnzip(f, reply.body, cfg.unzip, t.dataFile) && env.opensAsZip(reply.body) {
      assert w.files[t.dataFile := reply.body] - {t.dataFile} == w.files;
    }
  }

  // ---------------------------------------------------------------------------
  // An unrecognised format.
  // ---------------------------------------------------------------------------

  /** A format other than `gpx`, `tcx` and `original` raises at the first activity,
      before anything is fetched or written, even when the activity is on disk. */
  lemma UnknownFormatAborts(env: Env, cfg: Config, w: World, a: Activity)
    requires ParseFormat(cfg.fileFormat).None?
    ensures ProcessActivity(env, cfg, w, a) == Progress(w, Abort(UnrecognizedFormat))
  {
  }

  /** Under an unrecognised format a page adds its search request and nothing else;
      the run fails on it exactly when the search succeeded and the page holds an
      activity. */
  lemma UnknownFormatPage(env: Env, cfg: Config, w: World, done: int, n: int)
    requires ParseFormat(cfg.fileFormat).None?
    ensures var p := SearchPage(env, cfg, w, done, n);
      var reply := env.search(done, n);
      && p.world == w.(searches := w.searches + [SearchRequest(done, n)])
      && p.step == if !reply.Ok? then Abort(ReplyError(reply))
                   else if |reply.body.activities| > 0 then Abort(UnrecognizedFormat)
                   else Next
  {
    var reply := env.search(done, n);
    if reply.Ok? && |reply.body.activities| > 0 {
      UnknownFormatAborts(env, cfg, w.(searches := w.searches + [SearchRequest(done, n)]), reply.body.activities[0]);
    }
  }

  /** Every search succeeds with a page that holds no activity. */
  ghost predicate EmptyPages(env: Env)
  {
    forall start, limit :: env.search(start, limit).Ok? && env.search(start, limit).body.activities == []
  }

  /** Under an unrecognised format the loop fetches, writes and unpacks nothing and
      never stops early; over empty pages it completes. */
  lemma {:induction false} UnknownFormatPaginate(env: Env, cfg: Config, w: World, done: int, target: int, all: bool)
    requires ParseFormat(cfg.fileFormat).None?
    ensures var r := Paginate(env, cfg, w, done, target, all);
      && r.world.files == w.files && r.world.fetches == w.fetches && r.world.unpacked == w.unpacked
      && r.step != Return
      && (EmptyPages(env) ==> r.step == Next)
    decreases all, target - done
  {
    if done < target {
      var n := PageSize(done, target);
      var p := SearchPage(env, cfg, w, done, n);
      PaginateStep(env, cfg, w, done, target, all);
      UnknownFormatPage(env, cfg, w, done, n);
      if p.step == Next {
        UnknownFormatPaginate(env, cfg, p.world, done + n, NextTarget(env, done, n, target, all), false);
      }
    }
  }

  /** The first search request of a run. */
  function FirstSearch(count: Count): SearchRequest
  {
    if count.Number? then SearchRequest(0, PageSize(0, count.n)) else SearchRequest(0, 1)
  }

  /** A run under an unrecognised format fetches, writes and unpacks nothing. If the
      first page holds an activity, it fails after that one search; if every page is
      empty, it completes. */
  lemma UnknownFormatRun(env: Env, cfg: Config, dirs: set<string>, w: World)
    requires ParseFormat(cfg.fileFormat).None?
    ensures var r := Download(env, cfg, dirs, w);
      && r.world.files == w.files && r.world.fetches == w.fetches && r.world.unpacked == w.unpacked
      && r.outcome != Stopped
      && (Setup(dirs, cfg.directory, cfg.count).Success? && EmptyPages(env) ==> r.outcome == Completed)
      && (var first := FirstSearch(cfg.count);
          var reply := env.search(first.start, first.limit);
          Setup(dirs, cfg.directory, cfg.count).Success? && (cfg.count.Number? ==> cfg.count.n > 0)
          && reply.Ok? && |reply.body.activities| > 0
          ==> r.outcome == Failed(UnrecognizedFormat) && r.world.searches == w.searches + [first])
  {
    var target := if cfg.count.Number? then cfg.count.n else 1;
    var all := !cfg.count.Number?;
    UnknownFormatPaginate(env, cfg, w, 0, target, all);
    if 0 < target {
      PaginateStep(env, cfg, w, 0, target, all);
      UnknownFormatPage(env, cfg, w, 0, PageSize(0, target));
    }
  }

  // ---------------------------------------------------------------------------
  // The 'new' early stop.
  // ---------------------------------------------------------------------------

  /** Original archives are kept rather than unpacked. Unpacking removes only the
      archive the same pass has just written, but then the activity is no longer on
      disk under its own name. */
  predicate KeepsFiles(cfg: Config)
  {
    !(cfg.unzip && cfg.fileFormat == "original")
  }

  lemma PresentMonotone(files: map<string, seq<byte>>, files': map<string, seq<byte>>, cfg: Config, a: Activity)
    requires Present(files, cfg, a) && files.Keys <= files'.Keys
    ensures Present(files', cfg, a)
  {
    var f := ParseFormat(cfg.fileFormat).value;
    var t := Destination(cfg.directory, f, a.activityId);
    if t.dataFile in files {
      assert t.dataFile in files.Keys;
    } else {
      assert t.fitFile.value in files.Keys;
    }
  }

  /** Under `-f original -u`, the activity's archive was unpacked and removed. */
  predicate Unpacked(w: World, cfg: Config, a: Activity)
  {
    !KeepsFiles(cfg) && Destination(cfg.directory, Original, a.activityId).dataFile in w.unpacked
  }

  /** The activity was handled: its file is on disk, or its archive was unpacked. */
  predicate Saved(w: World, cfg: Config, a: Activity)
  {
    Present(w.files, cfg, a) || Unpacked(w, cfg, a)
  }

  lemma SavedMonotone(w: World, w': World, cfg: Config, a: Activity)
    requires Saved(w, cfg, a) && w.files.Keys <= w'.files.Keys && w.unpacked <= w'.unpacked
    ensures Saved(w', cfg, a)
  {
    if Present(w.files, cfg, a) {
      PresentMonotone(w.files, w'.files, cfg, a);
    } else {
      var x := Destination(cfg.directory, Original, a.activityId).dataFile;
      var i :| 0 <= i < |w.unpacked| && w.unpacked[i] == x;
      assert w'.unpacked[i] == x;
    }
  }

  /** Processing one activity never loses a file: an unpacked archive is one it has
      just written. Unless it aborts, the activity is saved afterwards; it ends the
      run only under 'new'. */
  lemma ProcessActivityMarks(env: Env, cfg: Config, w: World, a: Activity)
    ensures var r := ProcessActivity(env, cfg, w, a);
      && w.files.Keys <= r.world.files.Keys
      && w.unpacked <= r.world.unpacked
      && |r.world.fetches| <= |w.fetches| + 1
      && r.world.searches == w.searches
      && (!r.step.Abort? ==> Saved(r.world, cfg, a))
      && (r.step == Return ==> cfg.count == New)
  {
    var r := ProcessActivity(env, cfg, w, a);
    if ParseFormat(cfg.fileFormat).Some? {
      var f := ParseFormat(cfg.fileFormat).value;
      var t := Destination(cfg.directory, f, a.activityId);
      if !Present(w.files, cfg, a) && Recover(f, env.fetch(t.url)).Success? {
        var data := Recover(f, env.fetch(t.url)).value;
        if ShouldUnzip(f, data, cfg.unzip, t.dataFile) {
          assert t.dataFile !in w.files.Keys;
          assert cfg.fileFormat == "original";
        } else {
          assert t.dataFile in r.world.files;
        }
      }
    }
  }

  /** Processing a page never loses a file; unless it aborts, its first activity is
      saved afterwards, and all of them when it went through the whole page; it ends
      the run early only under 'new'. */
  lemma {:induction false} ProcessActivitiesMarks(env: Env, cfg: Config, w: World, acts: seq<Activity>)
    ensures var r := ProcessActivities(env, cfg, w, acts);
      && w.files.Keys <= r.world.files.Keys
      && w.unpacked <= r.world.unpacked
      && |r.world.fetches| <= |w.fetches| + |acts|
      && (!r.step.Abort? && |acts| > 0 ==> Saved(r.world, cfg, acts[0]))
      && (r.step == Next ==> forall a :: a in acts ==> Saved(r.world, cfg, a))
      && (r.step == Return ==> cfg.count == New && |acts| > 0)
    decreases |acts|
  {
    if acts != [] {
      var r := ProcessActivities(env, cfg, w, acts);
      var p := ProcessActivity(env, cfg, w, acts[0]);
      ProcessActivityMarks(env, cfg, w, acts[0]);
      if p.step == Next {
        ProcessActivitiesMarks(env, cfg, p.world, acts[1..]);
        SavedMonotone(p.world, r.world, cfg, acts[0]);
        if r.step == Next {
          forall a | a in acts ensures Saved(r.world, cfg, a) {
            if a != acts[0] { assert a in acts[1..]; }
          }
        }
      }
    }
  }

  /** Under 'new', once the page holds an activity that is already on disk, the run
      ends on that page: no further search request, at most the activities before
      it downloaded. */
  lemma {:induction false} NewStopsAtPresent(env: Env, cfg: Config, w: World, acts: seq<Activity>, k: nat)
    requires cfg.count == New
    requires k < |acts| && Present(w.files, cfg, acts[k])
    ensures var r := ProcessActivities(env, cfg, w, acts);
      r.step != Next && |r.world.fetches| <= |w.fetches| + k
    decreases k
  {
    var p := ProcessActivity(env, cfg, w, acts[0]);
    ProcessActivityMarks(env, cfg, w, acts[0]);
    if k > 0 && p.step == Next {
      PresentMonotone(w.files, p.world.files, cfg, acts[k]);
      NewStopsAtPresent(env, cfg, p.world, acts[1..], k - 1);
    }
  }

  /** The page-level consequence: a page holding an activity already on disk ends a
      'new' run with exactly one more search request. */
  lemma NewRunEndsOnPage(env: Env, cfg: Config, w: World, done: int, target: int, all: bool, k: nat)
    requires cfg.count == New && done < target
    requires env.search(done, PageSize(done, target)).Ok?
    requires k < |env.search(done, PageSize(done, target)).body.activities|
    requires Present(w.files, cfg, env.search(done, PageSize(done, target)).body.activities[k])
    ensures var r := Paginate(env, cfg, w, done, target, all);
      && r.step != Next
      && r.world.searches == w.searches + [SearchRequest(done, PageSize(done, target))]
      && |r.world.fetches| <= |w.fetches| + k
  {
    var n := PageSize(done, target);
    var w1 := w.(searches := w.searches + [SearchRequest(done, n)]);
    NewStopsAtPresent(env, cfg, w1, env.search(done, n).body.activities, k);
    SearchPageSearches(env, cfg, w, done, n);
  }

  /** Processing an activity adds at most its own data file. */
  lemma ProcessActivityNewKeys(env: Env, cfg: Config, w: World, b: Activity, f: Format)
    requires ParseFormat(cfg.fileFormat) == Some(f)
    ensures ProcessActivity(env, cfg, w, b).world.files.Keys <= w.files.Keys + {Destination(cfg.directory, f, b.activityId).dataFile}
  {
  }

  /** Processing one activity leaves another, with a different id, off the disk. */
  lemma OtherStaysAbsent(env: Env, cfg: Config, w: World, a: Activity, b: Activity)
    requires a.activityId != b.activityId && !Present(w.files, cfg, a)
    ensures !Present(ProcessActivity(env, cfg, w, b).world.files, cfg, a)
  {
    if ParseFormat(cfg.fileFormat).Some? {
      var f := ParseFormat(cfg.fileFormat).value;
      var ta, tb := Destination(cfg.directory, f, a.activityId), Destination(cfg.directory, f, b.activityId);
      var files := ProcessActivity(env, cfg, w, b).world.files;
      ProcessActivityNewKeys(env, cfg, w, b, f);
      if ta.dataFile == tb.dataFile {
        DataFileInjective(cfg.directory, f, a.activityId, b.activityId);
      }
      assert ta.dataFile !in files;
      if f == Original {
        FitSiblingNeverDataFile(cfg.directory, f, a.activityId, b.activityId);
        assert ta.fitFile.value !in files;
      }
    }
  }

  /** An activity not on disk is downloaded, or the run aborts on it; it never
      returns there. */
  lemma AbsentIsFetched(env: Env, cfg: Config, w: World, a: Activity)
    requires !Present(w.files, cfg, a)
    ensures var r := ProcessActivity(env, cfg, w, a);
      && r.step != Return
      && (!r.step.Abort? ==> |r.world.fetches| == |w.fetches| + 1)
  {
  }

  /** The early stop of 'new', exactly: over a page of distinct activities whose
      first one on disk is at `k`, the run downloads the `k` activities before it,
      each of them is saved, and it returns at `k` without a further download,
      unless one of those downloads aborts the run. */
  lemma {:induction false} NewReturnsAtFirstPresent(env: Env, cfg: Config, w: World, acts: seq<Activity>, k: nat)
    requires cfg.count == New
    requires k < |acts| && Present(w.files, cfg, acts[k])
    requires forall i :: 0 <= i < k ==> !Present(w.files, cfg, acts[i])
    requires forall i, j :: 0 <= i < j <= k ==> acts[i].activityId != acts[j].activityId
    ensures var r := ProcessActivities(env, cfg, w, acts);
      || r.step.Abort?
      || (&& r.step == Return
          && |r.world.fetches| == |w.fetches| + k
          && forall i :: 0 <= i < k ==> Saved(r.world, cfg, acts[i]))
    decreases k
  {
    var r := ProcessActivities(env, cfg, w, acts);
    var p := ProcessActivity(env, cfg, w, acts[0]);
    if k == 0 {
      SkipExisting(env, cfg, w, acts[0]);
    } else {
      AbsentIsFetched(env, cfg, w, acts[0]);
      if p.step == Next {
        var rest := acts[1..];
        ProcessActivityMarks(env, cfg, w, acts[0]);
        PresentMonotone(w.files, p.world.files, cfg, acts[k]);
        forall i | 0 <= i < k - 1 ensures !Present(p.world.files, cfg, rest[i]) {
          OtherStaysAbsent(env, cfg, w, acts[i + 1], acts[0]);
        }
        NewReturnsAtFirstPresent(env, cfg, p.world, rest, k - 1);
        ProcessActivitiesMarks(env, cfg, p.world, rest);
        SavedMonotone(p.world, r.world, cfg, acts[0]);
        if r.step == Return {
          forall i | 0 <= i < k ensures Saved(r.world, cfg, acts[i]) {
            if i > 0 { assert acts[i] == rest[i - 1]; }
          }
        }
      }
    }
  }

  // ---------------------------------------------------------------------------
  // Resumability: a second run over the same directory downloads nothing.
  // ---------------------------------------------------------------------------

  /** A page never loses a file; unless it aborts, the search succeeded and the
      page's first activity is saved afterwards, and all of them when the loop went
      through the whole page. */
  lemma SearchPageMarks(env: Env, cfg: Config, w: World, done: int, n: int)
    ensures var p := SearchPage(env, cfg, w, done, n);
      && w.files.Keys <= p.world.files.Keys
      && w.unpacked <= p.world.unpacked
      && (!p.step.Abort? ==> env.search(done, n).Ok?)
      && (!p.step.Abort? ==>
            var acts := env.search(done, n).body.activities;
            && (|acts| > 0 ==> Saved(p.world, cfg, acts[0]))
            && (p.step == Next ==> forall a :: a in acts ==> Saved(p.world, cfg, a))
            && (p.step == Return ==> cfg.count == New && |acts| > 0))
  {
    var reply := env.search(done, n);
    if reply.Ok? {
      ProcessActivitiesMarks(env, cfg, w.(searches := w.searches + [SearchRequest(done, n)]), reply.body.activities);
    }
  }

  /** A page whose activities are all on disk (under 'new': whose first one is)
      adds its search request and nothing else; under 'new' a non-empty page ends
      the run, otherwise the loop goes on. */
  lemma SearchPageQuiet(env: Env, cfg: Config, w: World, done: int, n: int)
    requires env.search(done, n).Ok?
    requires var acts := env.search(done, n).body.activities;
      && (cfg.count == New ==> |acts| > 0 ==> Present(w.files, cfg, acts[0]))
      && (cfg.count != New ==> forall a :: a in acts ==> Present(w.files, cfg, a))
    ensures var p := SearchPage(env, cfg, w, done, n);
      && p.world == w.(searches := w.searches + [SearchRequest(done, n)])
      && p.step == if cfg.count == New && |env.search(done, n).body.activities| > 0 then Return else Next
  {
    ProcessActivitiesQuiet(env, cfg, w.(searches := w.searches + [SearchRequest(done, n)]), env.search(done, n).body.activities);
  }

  /** The loop never loses a file or an unpack entry, and only appends search
      requests. */
  lemma {:induction false} PaginateKeepsFiles(env: Env, cfg: Config, w: World, done: int, target: int, all: bool)
    ensures var r := Paginate(env, cfg, w, done, target, all);
      && w.files.Keys <= r.world.files.Keys
      && w.unpacked <= r.world.unpacked
      && w.searches <= r.world.searches
    decreases all, target - done
  {
    if done < target {
      var mid, next := PaginateTurn(env, cfg, w, done, target, all);
      if next {
        var n := PageSize(done, target);
        PaginateKeepsFiles(env, cfg, mid, done + n, NextTarget(env, done, n, target, all), false);
      }
    }
  }

  /** One turn of the loop, told through the world `mid` its page leaves: the page
      adds its search request, keeps every file and unpack entry and, when the loop
      goes on, is saved whole. */
  lemma PaginateTurn(env: Env, cfg: Config, w: World, done: int, target: int, all: bool)
      returns (mid: World, next: bool)
    requires done < target
    ensures var n := PageSize(done, target);
      && mid.searches == w.searches + [SearchRequest(done, n)]
      && w.files.Keys <= mid.files.Keys && w.unpacked <= mid.unpacked
      && (next ==> PageSaved(env, cfg, mid, SearchRequest(done, n)))
      && (next ==> Paginate(env, cfg, w, done, target, all)
                   == Paginate(env, cfg, mid, done + n, NextTarget(env, done, n, target, all), false))
      && (!next ==> Paginate(env, cfg, w, done, target, all).world == mid
                    && Paginate(env, cfg, w, done, target, all).step != Next)
  {
    var n := PageSize(done, target);
    var p := SearchPage(env, cfg, w, done, n);
    PaginateStep(env, cfg, w, done, target, all);
    SearchPageSaves(env, cfg, w, done, n);
    mid, next := p.world, p.step == Next;
  }

  /** What the loop saves once its target is fixed: when it completes, every search
      of the schedule succeeded and every activity on those pages is saved (on
      disk, or its archive unpacked). */
  lemma {:induction false} PaginateSavesAll(env: Env, cfg: Config, w: World, done: int, target: int)
    ensures var r := Paginate(env, cfg, w, done, target, false);
      r.step == Next ==> PagesSaved(env, cfg, r.world, Schedule(done, target))
    decreases target - done
  {
    if done < target {
      var mid, next := PaginateTurn(env, cfg, w, done, target, false);
      if next {
        var n := PageSize(done, target);
        var rest := Paginate(env, cfg, mid, done + n, target, false);
        PaginateKeepsFiles(env, cfg, mid, done + n, target, false);
        PaginateSavesAll(env, cfg, mid, done + n, target);
        if rest.step == Next {
          PageSavedMonotone(env, cfg, mid, rest.world, SearchRequest(done, n));
          PagesSavedCons(env, cfg, rest.world, SearchRequest(done, n), Schedule(done + n, target));
        }
      }
    }
  }

  /** Under `all` and `new`: the probe page, then the schedule to its `totalFound`. */
  lemma ProbedLoopSavesAll(env: Env, cfg: Config, w: World)
    ensures var r := Paginate(env, cfg, w, 0, 1, true);
      r.step == Next ==> PagesSaved(env, cfg, r.world, [SearchRequest(0, 1)] + Schedule(1, NextTarget(env, 0, 1, 1, true)))
  {
    var mid, next := PaginateTurn(env, cfg, w, 0, 1, true);
    if next {
      var t := NextTarget(env, 0, 1, 1, true);
      var rest := Paginate(env, cfg, mid, 1, t, false);
      PaginateKeepsFiles(env, cfg, mid, 1, t, false);
      PaginateSavesAll(env, cfg, mid, 1, t);
      if rest.step == Next {
        PageSavedMonotone(env, cfg, mid, rest.world, SearchRequest(0, 1));
        PagesSavedCons(env, cfg, rest.world, SearchRequest(0, 1), Schedule(1, t));
      }
    }
  }

  /** What a whole run saves: no file and no unpack entry is lost, and a run that
      completes has fetched every page it expected (the probe, then the schedule)
      and saved every activity on them (on disk, or its archive unpacked). */
  lemma DownloadSavesAll(env: Env, cfg: Config, dirs: set<string>, w: World)
    ensures var r := Download(env, cfg, dirs, w);
      && w.files.Keys <= r.world.files.Keys
      && w.unpacked <= r.world.unpacked
      && (r.outcome == Completed ==> PagesSaved(env, cfg, r.world, ExpectedSearches(env, cfg.count)))
  {
    if Setup(dirs, cfg.directory, cfg.count).Success? {
      if cfg.count.Number? {
        PaginateKeepsFiles(env, cfg, w, 0, cfg.count.n, false);
        PaginateSavesAll(env, cfg, w, 0, cfg.count.n);
      } else {
        PaginateKeepsFiles(env, cfg, w, 0, 1, true);
        ProbedLoopSavesAll(env, cfg, w);
        assert ExpectedSearches(env, cfg.count) == [SearchRequest(0, 1)] + Schedule(1, NextTarget(env, 0, 1, 1, true));
      }
    }
  }

  /** The search `q` succeeded and every activity of its page is saved in `w`. */
  predicate PageSaved(env: Env, cfg: Config, w: World, q: SearchRequest)
  {
    env.search(q.start, q.limit).Ok? && AllSaved(w, cfg, env.search(q.start, q.limit).body.activities)
  }

  /** Every activity of `acts` is saved in `w`. */
  predicate AllSaved(w: World, cfg: Config, acts: seq<Activity>)
    decreases |acts|
  {
    acts == [] || (Saved(w, cfg, acts[0]) && AllSaved(w, cfg, acts[1..]))
  }

  lemma {:induction false} AllSavedMeans(w: World, cfg: Config, acts: seq<Activity>)
    ensures AllSaved(w, cfg, acts) <==> forall a :: a in acts ==> Saved(w, cfg, a)
    decreases |acts|
  {
    if acts != [] {
      AllSavedMeans(w, cfg, acts[1..]);
      assert forall a :: a in acts <==> a == acts[0] || a in acts[1..];
    }
  }

  /** Every search in `qs` succeeded, and its page is saved in `w`. */
  predicate PagesSaved(env: Env, cfg: Config, w: World, qs: seq<SearchRequest>)
    decreases |qs|
  {
    qs == [] || (PageSaved(env, cfg, w, qs[0]) && PagesSaved(env, cfg, w, qs[1..]))
  }

  /** `PagesSaved` read at one index. */
  lemma {:induction false} PagesSavedAt(env: Env, cfg: Config, w: World, qs: seq<SearchRequest>, i: int)
    requires PagesSaved(env, cfg, w, qs) && 0 <= i < |qs|
    ensures PageSaved(env, cfg, w, qs[i])
    decreases i
  {
    if i > 0 {
      PagesSavedAt(env, cfg, w, qs[1..], i - 1);
    }
  }

  lemma PageSavedMonotone(env: Env, cfg: Config, w: World, w': World, q: SearchRequest)
    requires PageSaved(env, cfg, w, q) && w.files.Keys <= w'.files.Keys && w.unpacked <= w'.unpacked
    ensures PageSaved(env, cfg, w', q)
  {
    var acts := env.search(q.start, q.limit).body.activities;
    AllSavedMeans(w, cfg, acts);
    AllSavedMeans(w', cfg, acts);
    forall a | a in acts ensures Saved(w', cfg, a) {
      SavedMonotone(w, w', cfg, a);
    }
  }

  /** A page adds its own search request, loses no file and no unpack entry, and is
      saved whole when the loop went through it. */
  lemma SearchPageSaves(env: Env, cfg: Config, w: World, done: int, n: int)
    ensures var p := SearchPage(env, cfg, w, done, n);
      && p.world.searches == w.searches + [SearchRequest(done, n)]
      && w.files.Keys <= p.world.files.Keys
      && w.unpacked <= p.world.unpacked
      && (p.step == Next ==> PageSaved(env, cfg, p.world, SearchRequest(done, n)))
  {
    SearchPageSearches(env, cfg, w, done, n);
    SearchPageMarks(env, cfg, w, done, n);
    if env.search(done, n).Ok? {
      AllSavedMeans(SearchPage(env, cfg, w, done, n).world, cfg, env.search(done, n).body.activities);
    }
  }

  lemma PagesSavedCons(env: Env, cfg: Config, w: World, q: SearchRequest, qs: seq<SearchRequest>)
    requires PageSaved(env, cfg, w, q) && PagesSaved(env, cfg, w, qs)
    ensures PagesSaved(env, cfg, w, [q] + qs)
  {
    assert ([q] + qs)[0] == q && ([q] + qs)[1..] == qs;
  }

  /** A page whose activities are on disk (under 'new': whose first one is) is
      passed over without a download and without a write. */
  lemma {:induction false} ProcessActivitiesQuiet(env: Env, cfg: Config, w: World, acts: seq<Activity>)
    requires cfg.count == New ==> |acts| > 0 ==> Present(w.files, cfg, acts[0])
    requires cfg.count != New ==> forall a :: a in acts ==> Present(w.files, cfg, a)
    ensures var r := ProcessActivities(env, cfg, w, acts);
      r.world == w && r.step == if cfg.count == New && |acts| > 0 then Return else Next
    decreases |acts|
  {
    if acts != [] {
      SkipExisting(env, cfg, w, acts[0]);
      if cfg.count != New {
        forall a | a in acts[1..] ensures Present(w.files, cfg, a) {
          assert a in acts;
        }
        ProcessActivitiesQuiet(env, cfg, w, acts[1..]);
      }
    }
  }

  /** What a rerun finds of a page the first run went through: the search had
      succeeded, and the activities the rerun will skip are on disk. */
  lemma RerunFindsPage(env: Env, cfg: Config, w: World, w2: World, done: int, target: int, all: bool)
    requires KeepsFiles(cfg) && done < target
    requires !Paginate(env, cfg, w, done, target, all).step.Abort?
    requires Paginate(env, cfg, w, done, target, all).world.files.Keys <= w2.files.Keys
    ensures var n := PageSize(done, target);
      var p := SearchPage(env, cfg, w, done, n);
      && env.search(done, n).Ok? && !p.step.Abort?
      && var acts := env.search(done, n).body.activities;
      && (p.step == Return ==> cfg.count == New && |acts| > 0)
      && (cfg.count == New ==> |acts| > 0 ==> Present(w2.files, cfg, acts[0]))
      && (cfg.count != New ==> forall a :: a in acts ==> Present(w2.files, cfg, a))
  {
    var n := PageSize(done, target);
    var p := SearchPage(env, cfg, w, done, n);
    SearchPageMarks(env, cfg, w, done, n);
    if p.step == Next {
      PaginateKeepsFiles(env, cfg, p.world, done + n, NextTarget(env, done, n, target, all), false);
    }
    forall a | a in env.search(done, n).body.activities && Present(p.world.files, cfg, a)
      ensures Present(w2.files, cfg, a)
    {
      PresentMonotone(p.world.files, w2.files, cfg, a);
    }
  }

  /** The loop run again, from the same offsets against the same server, over files
      that include everything the first run left, downloads and writes nothing. */
  lemma {:induction false} PaginateRerun(env: Env, cfg: Config, w: World, w2: World, done: int, target: int, all: bool)
    requires KeepsFiles(cfg)
    requires !Paginate(env, cfg, w, done, target, all).step.Abort?
    requires Paginate(env, cfg, w, done, target, all).world.files.Keys <= w2.files.Keys
    ensures var r2 := Paginate(env, cfg, w2, done, target, all);
      && r2.world.files == w2.files && r2.world.fetches == w2.fetches
      && r2.world.unpacked == w2.unpacked && !r2.step.Abort?
    decreases all, target - done
  {
    if done < target {
      var n := PageSize(done, target);
      RerunFindsPage(env, cfg, w, w2, done, target, all);
      SearchPageQuiet(env, cfg, w2, done, n);
      PaginateStep(env, cfg, w, done, target, all);
      PaginateStep(env, cfg, w2, done, target, all);
      var q := SearchPage(env, cfg, w2, done, n);
      if q.step == Next {
        var p := SearchPage(env, cfg, w, done, n);
        PaginateRerun(env, cfg, p.world, q.world, done + n, NextTarget(env, done, n, target, all), false);
      }
    }
  }

  /** A log that grew in two steps, neither of which added `x`, grew without `x`. */
  lemma NotAddedTwice<T>(a: seq<T>, b: seq<T>, c: seq<T>, x: T)
    requires a <= b && b <= c && x !in b[|a|..] && x !in c[|b|..]
    ensures a <= c && x !in c[|a|..]
  {
    assert c[|a|..] == b[|a|..] + c[|b|..];
  }

  /** While any activity is processed, one already on disk stays there and is not
      downloaded. */
  lemma ProcessActivityNoRefetch(env: Env, cfg: Config, w: World, a: Activity, b: Activity, f: Format)
    requires ParseFormat(cfg.fileFormat) == Some(f) && Present(w.files, cfg, a)
    ensures var r := ProcessActivity(env, cfg, w, b);
      && w.fetches <= r.world.fetches
      && ActivityUrl(f, a.activityId) !in r.world.fetches[|w.fetches|..]
      && Present(r.world.files, cfg, a)
  {
    var r := ProcessActivity(env, cfg, w, b);
    ProcessActivityMarks(env, cfg, w, b);
    PresentMonotone(w.files, r.world.files, cfg, a);
    if b.activityId == a.activityId {
      SkipExisting(env, cfg, w, b);
    }
  }

  lemma {:induction false} ProcessActivitiesNoRefetch(env: Env, cfg: Config, w: World, a: Activity, acts: seq<Activity>, f: Format)
    requires ParseFormat(cfg.fileFormat) == Some(f) && Present(w.files, cfg, a)
    ensures var r := ProcessActivities(env, cfg, w, acts);
      && w.fetches <= r.world.fetches
      && ActivityUrl(f, a.activityId) !in r.world.fetches[|w.fetches|..]
      && Present(r.world.files, cfg, a)
    decreases |acts|
  {
    if acts != [] {
      var r := ProcessActivities(env, cfg, w, acts);
      var p := ProcessActivity(env, cfg, w, acts[0]);
      ProcessActivityNoRefetch(env, cfg, w, a, acts[0], f);
      if p.step == Next {
        ProcessActivitiesNoRefetch(env, cfg, p.world, a, acts[1..], f);
        NotAddedTwice(w.fetches, p.world.fetches, r.world.fetches, ActivityUrl(f, a.activityId));
      }
    }
  }

  lemma {:induction false} PaginateNoRefetch(env: Env, cfg: Config, w: World, a: Activity, done: int, target: int, all: bool, f: Format)
    requires ParseFormat(cfg.fileFormat) == Some(f) && Present(w.files, cfg, a)
    ensures var r := Paginate(env, cfg, w, done, target, all);
      && w.fetches <= r.world.fetches
      && ActivityUrl(f, a.activityId) !in r.world.fetches[|w.fetches|..]
    decreases all, target - done
  {
    if done < target {
      var n := PageSize(done, target);
      var p := SearchPage(env, cfg, w, done, n);
      var reply := env.search(done, n);
      PaginateStep(env, cfg, w, done, target, all);
      if reply.Ok? {
        ProcessActivitiesNoRefetch(env, cfg, w.(searches := w.searches + [SearchRequest(done, n)]), a, reply.body.activities, f);
      }
      if p.step == Next {
        var r := Paginate(env, cfg, w, done, target, all);
        PaginateNoRefetch(env, cfg, p.world, a, done + n, NextTarget(env, done, n, target, all), false, f);
        NotAddedTwice(w.fetches, p.world.fetches, r.world.fetches, ActivityUrl(f, a.activityId));
      }
    }
  }

  /** A run never downloads an activity that is already on disk when it starts,
      whatever the count, the unzip setting or the way the run ends: a run that
      died is resumed without repeating the downloads it completed. */
  lemma ResumeSkipsPresent(env: Env, cfg: Config, dirs: set<string>, w: World, a: Activity, f: Format)
    requires ParseFormat(cfg.fileFormat) == Some(f) && Present(w.files, cfg, a)
    ensures var r := Download(env, cfg, dirs, w);
      && w.fetches <= r.world.fetches
      && ActivityUrl(f, a.activityId) !in r.world.fetches[|w.fetches|..]
  {
    if Setup(dirs, cfg.directory, cfg.count).Success? {
      var target := if cfg.count.Number? then cfg.count.n else 1;
      PaginateNoRefetch(env, cfg, w, a, 0, target, !cfg.count.Number?, f);
    }
  }

  /** The server of the 'new' example: it lists activities 3, 2 and 1, newest first,
      and every download but that of activity 2 succeeds. */
  ghost predicate GapServer(env: Env)
  {
    && (forall start, limit :: env.search(start, limit) ==
          if start == 0 then Ok(Page([Activity(3)], 3)) else Ok(Page([Activity(2), Activity(1)], 3)))
    && (forall u :: env.fetch(u) == if u.id == 2 then HttpError(503) else Ok([]))
  }

  /** The first 'new' run of the example saves activity 3 and fails on activity 2. */
  lemma GapFirstRun(env: Env, cfg: Config, dirs: set<string>, w: World)
    requires GapServer(env)
    requires cfg.count == New && cfg.fileFormat == "tcx" && cfg.directory in dirs
    requires w.files == map[] && w.fetches == []
    ensures var r := Download(env, cfg, dirs, w);
      && r.outcome == Failed(HttpFailure(503))
      && r.dirs == dirs
      && r.world.fetches == [ActivityUrl(Tcx, 3), ActivityUrl(Tcx, 2)]
      && r.world.files == map[Destination(cfg.directory, Tcx, 3).dataFile := []]
  {
    var t3, t2 := Destination(cfg.directory, Tcx, 3), Destination(cfg.directory, Tcx, 2);
    assert ParseFormat(cfg.fileFormat) == Some(Tcx);
    PaginateStep(env, cfg, w, 0, 1, true);
    var w1 := w.(searches := w.searches + [SearchRequest(0, 1)]);
    DownloadEffects(env, cfg, w1, Activity(3), Tcx);
    var p := SearchPage(env, cfg, w, 0, 1);
    assert p.step == Next && p.world.files == map[t3.dataFile := []];
    assert NextTarget(env, 0, 1, 1, true) == 3;
    PaginateStep(env, cfg, p.world, 1, 3, false);
    var w2 := p.world.(searches := p.world.searches + [SearchRequest(1, 2)]);
    if t2.dataFile == t3.dataFile {
      DataFileInjective(cfg.directory, Tcx, 2, 3);
    }
    DownloadEffects(env, cfg, w2, Activity(2), Tcx);
  }

  /** Under 'new', a rerun after a failure does not pick up where the run left off:
      in the example the rerun stops at activity 3, which is on disk, without any
      download, so activities 2 and 1 are never saved. */
  lemma NewRerunLeavesGap(env: Env, cfg: Config, dirs: set<string>, w: World)
    requires GapServer(env)
    requires cfg.count == New && cfg.fileFormat == "tcx" && cfg.directory in dirs
    requires w.files == map[] && w.fetches == []
    ensures var r1 := Download(env, cfg, dirs, w);
      var r2 := Download(env, cfg, r1.dirs, r1.world);
      && r1.outcome == Failed(HttpFailure(503))
      && r2.outcome == Stopped
      && r2.world.fetches == r1.world.fetches
      && !Present(r2.world.files, cfg, Activity(2)) && !Present(r2.world.files, cfg, Activity(1))
  {
    GapFirstRun(env, cfg, dirs, w);
    var r1 := Download(env, cfg, dirs, w);
    var t3 := Destination(cfg.directory, Tcx, 3);
    assert ParseFormat(cfg.fileFormat) == Some(Tcx);
    PaginateStep(env, cfg, r1.world, 0, 1, true);
    var w1 := r1.world.(searches := r1.world.searches + [SearchRequest(0, 1)]);
    SkipExisting(env, cfg, w1, Activity(3));
    forall id: nat | id != 3 ensures Destination(cfg.directory, Tcx, id).dataFile != t3.dataFile {
      if Destination(cfg.directory, Tcx, id).dataFile == t3.dataFile {
        DataFileInjective(cfg.directory, Tcx, id, 3);
      }
    }
  }

  /** Resumability: when a run did not fail and did not unpack archives, running it
      again with the same arguments against the same server downloads nothing and
      leaves every file as it was, and does not fail either. */
  lemma DownloadTwice(env: Env, cfg: Config, dirs: set<string>, w: World)
    requires KeepsFiles(cfg)
    requires !Download(env, cfg, dirs, w).outcome.Failed?
    ensures var r1 := Download(env, cfg, dirs, w);
      var r2 := Download(env, cfg, r1.dirs, r1.world);
      && r2.world.files == r1.world.files
      && r2.world.fetches == r1.world.fetches
      && r2.world.unpacked == r1.world.unpacked
      && !r2.outcome.Failed?
  {
    var r1 := Download(env, cfg, dirs, w);
    var start := if cfg.count.Number? then cfg.count.n else 1;
    var all := !cfg.count.Number?;
    PaginateRerun(env, cfg, w, r1.world, 0, start, all);
  }
}

=== FILE: naming.dfy ===
/** Where an activity is saved and where it is downloaded from
    (gcexport.py:45-50 and 172-183). */
module Naming {
  import opened Common

  /** The three export formats the downloader knows. */
  datatype Format = Gpx | Tcx | Original

  /** The command-line spelling of each format. */
  function FormatName(f: Format): string
  {
    match f
    case Gpx => "gpx"
    case Tcx => "tcx"
    case Original => "original"
  }

  /** Recognises a format string; anything else is the 'Unrecognized file format.' case. */
  function ParseFormat(s: string): (r: Option<Format>)
    ensures r.Some? ==> FormatName(r.value) == s
    ensures r.None? ==> s != "gpx" && s != "tcx" && s != "original"
  {
    if s == "gpx" then Some(Gpx)
    else if s == "tcx" then Some(Tcx)
    else if s == "original" then Some(Original)
    else None
  }

  /** Every format is recognised under its own name, and only under it. */
  lemma FormatRoundTrip(f: Format, s: string)
    ensures ParseFormat(FormatName(f)) == Some(f)
    ensures ParseFormat(s) == Some(f) <==> s == FormatName(f)
  {
    match f
    case Gpx =>
    case Tcx =>
    case Original =>
  }

  const GpxActivityUrl := "https://connect.garmin.com/modern/proxy/download-service/export/gpx/activity/"
  const TcxActivityUrl := "https://connect.garmin.com/modern/proxy/download-service/export/tcx/activity/"
  const OriginalActivityUrl := "http://connect.garmin.com/proxy/download-service/files/activity/"

  predicate IsDigit(c: char) { '0' <= c <= '9' }

  function DigitChar(d: nat): (c: char)
    requires d < 10
    ensures IsDigit(c)
    ensures c as int - '0' as int == d
  {
    (d + '0' as int) as char
  }

  /** The number a string of decimal digits denotes, most significant digit first. */
  function DigitsValue(s: string): nat
    requires forall i :: 0 <= i < |s| ==> IsDigit(s[i])
  {
    if s == [] then 0
    else
      assert IsDigit(s[|s| - 1]);
      DigitsValue(s[..|s| - 1]) * 10 + (s[|s| - 1] as int - '0' as int)
  }

  /** `str(n)` for a non-negative integer: its decimal digits, most significant first
      (`DecimalValue` states that they denote `n`, without a leading zero). */
  function Decimal(n: nat): (r: string)
    ensures |r| > 0
    ensures forall i :: 0 <= i < |r| ==> IsDigit(r[i])
    ensures |r| == 1 <==> n < 10
  {
    if n < 10 then [DigitChar(n)] else Decimal(n / 10) + [DigitChar(n % 10)]
  }

  /** The rendering denotes `n` and starts with `0` only for `0` itself. */
  lemma {:induction false} DecimalValue(n: nat)
    ensures DigitsValue(Decimal(n)) == n
    ensures Decimal(n)[0] == '0' <==> n == 0
  {
    var r := Decimal(n);
    if n >= 10 {
      DecimalValue(n / 10);
      assert r[..|r| - 1] == Decimal(n / 10);
      assert r[0] == Decimal(n / 10)[0];
    }
  }

  /** Reading back: a digit string without a leading zero is the rendering of the
      number it denotes. */
  lemma {:induction false} DecimalOfDigits(s: string)
    requires |s| > 0 && forall i :: 0 <= i < |s| ==> IsDigit(s[i])
    requires |s| > 1 ==> s[0] != '0'
    ensures Decimal(DigitsValue(s)) == s
    decreases |s|
  {
    var d := s[|s| - 1] as int - '0' as int;
    if |s| == 1 {
      assert DigitsValue(s) == d;
      assert DigitChar(d) == s[0];
    } else {
      var s' := s[..|s| - 1];
      assert s'[0] == s[0];
      DecimalOfDigits(s');
      var v := DigitsValue(s');
      DecimalValue(v);
      assert v != 0;
      var m := v * 10 + d;
      assert DigitsValue(s) == m;
      AppendDigit(v, d);
      assert Decimal(m) == Decimal(v) + [DigitChar(d)];
      assert DigitChar(d) == s[|s| - 1];
      assert s == s' + [s[|s| - 1]];
    }
  }

  /** Appending digit `d` to `v` gives a number whose quotient and remainder by ten
      are `v` and `d`. */
  lemma AppendDigit(v: nat, d: int)
    requires 0 <= d < 10
    ensures (v * 10 + d) / 10 == v && (v * 10 + d) % 10 == d
  {
  }

  /** Distinct ids have distinct decimal renderings. */
  lemma {:induction false} DecimalInjective(m: nat, n: nat)
    requires Decimal(m) == Decimal(n)
    ensures m == n
  {
    var s := Decimal(m);
    if m >= 10 && n >= 10 {
      assert Decimal(m / 10) == s[..|s| - 1] == Decimal(n / 10);
      DecimalInjective(m / 10, n / 10);
      assert DigitChar(m % 10) == s[|s| - 1] == DigitChar(n % 10);
    } else if m < 10 && n < 10 {
      assert DigitChar(m) == s[0] == DigitChar(n);
    }
  }

  /** The download URL of an activity in a format. Requests are recorded as this
      value; `UrlText` gives the text sent to the server. */
  datatype Url = ActivityUrl(format: Format, id: nat)

  /** The text of a download URL: the format's export or files service, the id,
      and for the two export services the `?full=true` query. */
  function UrlText(u: Url): string
  {
    ServiceUrl(u.format) + Decimal(u.id) + Query(u.format)
  }

  function ServiceUrl(f: Format): string
  {
    match f
    case Gpx => GpxActivityUrl
    case Tcx => TcxActivityUrl
    case Original => OriginalActivityUrl
  }

  function Query(f: Format): string
  {
    if f == Original then "" else "?full=true"
  }

  /** The names and the URL that belong to one activity: the data file, the `.fit`
      sibling that the original format also checks, and the download URL. */
  datatype Target = Target(dataFile: string, fitFile: Option<string>, url: Url)

  function Extension(f: Format): string
  {
    match f
    case Gpx => ".gpx"
    case Tcx => ".tcx"
    case Original => ".zip"
  }

  /** The naming branches of the download loop for one activity id. */
  function Destination(directory: string, f: Format, id: nat): (t: Target)
    ensures t.fitFile.Some? <==> f == Original
  {
    var i := Decimal(id);
    match f
    case Gpx => Target(directory + "/activity_" + i + ".gpx", None, ActivityUrl(Gpx, id))
    case Tcx => Target(directory + "/activity_" + i + ".tcx", None, ActivityUrl(Tcx, id))
    case Original => Target(directory + "/activity_" + i + ".zip", Some(directory + "/" + i + ".fit"), ActivityUrl(Original, id))
  }

  /** The data file is `<directory>/activity_<id>` followed by the format's extension. */
  lemma DataFileShape(directory: string, f: Format, id: nat)
    ensures Destination(directory, f, id).dataFile == directory + "/activity_" + Decimal(id) + Extension(f)
    ensures |Extension(f)| == 4 && Extension(f)[0] == '.'
    ensures f == Original ==> Destination(directory, f, id).fitFile == Some(directory + "/" + Decimal(id) + ".fit")
  {
  }

  /** Two activities of one run never share a data file. */
  lemma DataFileInjective(directory: string, f: Format, m: nat, n: nat)
    requires Destination(directory, f, m).dataFile == Destination(directory, f, n).dataFile
    ensures m == n
  {
    var dm, dn := Decimal(m), Decimal(n);
    var a, b := Destination(directory, f, m).dataFile, Destination(directory, f, n).dataFile;
    var pre := |directory + "/activity_"|;
    DataFileShape(directory, f, m);
    DataFileShape(directory, f, n);
    assert |dm| == |dn|;
    assert dm == a[pre..pre + |dm|] == b[pre..pre + |dn|] == dn;
    DecimalInjective(m, n);
  }

  /** Where the service URLs differ: at position 62 the export services read `t`
      (of `export/`) and the files service `y` (of `activity/`); at 64 the two export
      services name their format. */
  lemma ServiceUrlMarks()
    ensures |ServiceUrl(Gpx)| == |ServiceUrl(Tcx)| == 77 && |ServiceUrl(Original)| == 64
    ensures ServiceUrl(Original)[62] == 'y' && ServiceUrl(Gpx)[62] == 't' && ServiceUrl(Tcx)[62] == 't'
    ensures ServiceUrl(Gpx)[64] == 'g' && ServiceUrl(Tcx)[64] == 't'
  {
  }

  /** The text of a download URL determines its format and its id: no two
      activities, in any formats, are downloaded from the same address. */
  lemma UrlTextInjective(u: Url, v: Url)
    requires UrlText(u) == UrlText(v)
    ensures u == v
  {
    var a := UrlText(u);
    var base, base' := ServiceUrl(u.format), ServiceUrl(v.format);
    ServiceUrlMarks();
    assert a[..|base|] == base && a[..|base'|] == base';
    var dm, dn := Decimal(u.id), Decimal(v.id);
    assert u.format == v.format;
    assert a == base + dm + Query(u.format) && a == base + dn + Query(u.format);
    assert |dm| == |dn|;
    assert dm == a[|base|..|base| + |dm|] == dn;
    DecimalInjective(u.id, v.id);
  }

  /** Two activities never share a `.fit` sibling. */
  lemma FitSiblingInjective(directory: string, m: nat, n: nat)
    requires Destination(directory, Original, m).fitFile == Destination(directory, Original, n).fitFile
    ensures m == n
  {
    var dm, dn := Decimal(m), Decimal(n);
    var a, b := Destination(directory, Original, m).fitFile.value, Destination(directory, Original, n).fitFile.value;
    var p := |directory + "/"|;
    assert a == directory + "/" + dm + ".fit" && b == directory + "/" + dn + ".fit";
    assert |dm| == |dn|;
    assert dm == a[p..p + |dm|] == b[p..p + |dn|] == dn;
    DecimalInjective(m, n);
  }

  /** A `.fit` sibling is never the data file of any activity, whatever the format:
      the character after the directory's slash is a digit in one and 'a' in the other. */
  lemma FitSiblingNeverDataFile(directory: string, f: Format, m: nat, n: nat)
    ensures Destination(directory, Original, m).fitFile.value != Destination(directory, f, n).dataFile
  {
    var fit := Destination(directory, Original, m).fitFile.value;
    var data := Destination(directory, f, n).dataFile;
    var k := |directory| + 1;
    DataFileShape(directory, f, n);
    assert fit[k] == Decimal(m)[0];
    assert data[k] == 'a';
  }

  /** The data file of activity 12345 in directory `d`: `d/activity_12345.gpx`,
      `.tcx` or `.zip`. */
  lemma NamingExample(d: string, id: nat, f: Format)
    requires d == "d" && id == 12345
    ensures Destination(d, f, id).dataFile == "d/activity_12345" + Extension(f)
  {
    var i := Decimal(id);
    assert i == "12345";
    DataFileShape(d, f, id);
    assert d + "/activity_" + i == "d/activity_12345";
  }

  /** The `.fit` sibling of original activity 12345 in directory `d`. */
  lemma FitSiblingExample(d: string, id: nat)
    requires d == "d" && id == 12345
    ensures Destination(d, Original, id).fitFile == Some("d/12345.fit")
  {
    var i := Decimal(id);
    assert i == "12345";
    assert d + "/" + i + ".fit" == "d/12345.fit";
  }

  /** The download URL of activity 12345 in the GPX format. */
  lemma UrlExample(id: nat)
    requires id == 12345
    ensures UrlText(ActivityUrl(Gpx, id)) == GpxActivityUrl + "12345?full=true"
  {
    var i := Decimal(id);
    assert i == "12345";
    assert i + "?full=true" == "12345?full=true";
  }
}

=== FILE: recovery.dfy ===
/** What the downloader does with the reply to an activity download:
    which HTTP errors it tolerates (gcexport.py:204-221) and when it unpacks
    a downloaded original archive (gcexport.py:238-240). */
module Recovery {
  import opened Common
  import opened Naming

  /** The two known-benign statuses: no TCX is generated for a manual GPX upload
      (500), and a manually entered activity has no original file (404). */
  predicate Tolerated(f: Format, code: int)
  {
    (code == 500 && f == Tcx) || (code == 404 && f == Original)
  }

  /** The bytes to save for one download, or the error that aborts the run. */
  function Recover(f: Format, reply: Reply<seq<byte>>): (r: Result<seq<byte>>)
    ensures reply.Ok? ==> r == Success(reply.body)
    ensures reply.HttpError? ==> (r.Success? <==> Tolerated(f, reply.code))
    ensures reply.Broken? ==> r.Failure?
    ensures !reply.Ok? && r.Success? ==> r.value == []
    ensures r.Failure? ==> r.error == ReplyError(reply)
  {
    match reply
    case Ok(data) => Success(data)
    case HttpError(code) =>
      if code == 500 && f == Tcx then Success([])
      else if code == 404 && f == Original then Success([])
      else Failure(HttpFailure(code))
    case Broken => Failure(TransportFailure)
  }

  /** Python's `s[-3:]`: the last three characters, or all of a shorter string. */
  function LastThree(s: string): (r: string)
    ensures |r| == if |s| < 3 then |s| else 3
    ensures r == s[|s| - |r|..]
  {
    if |s| >= 3 then s[|s| - 3..] else s
  }

  function LowerChar(c: char): char
  {
    if 'A' <= c <= 'Z' then (c as int + 32) as char else c
  }

  /** `.lower()` restricted to ASCII letters. */
  function Lower(s: string): (r: string)
    ensures |r| == |s|
    ensures forall i :: 0 <= i < |s| ==> r[i] == LowerChar(s[i])
  {
    seq(|s|, i requires 0 <= i < |s| => LowerChar(s[i]))
  }

  /** The unzip trigger of the original format: some bytes were saved, unzipping was
      asked for, and the file name ends in `zip` in any letter case. */
  predicate ShouldUnzip(f: Format, data: seq<byte>, unzip: bool, dataFile: string)
  {
    f == Original && |data| > 0 && unzip && Lower(LastThree(dataFile)) == "zip"
  }

  /** Since the original format always saves to `activity_<id>.zip`, the extension test
      always passes: unpacking an original download is attempted exactly when it is
      non-empty and unzipping was asked for, so a tolerated 404 placeholder is never
      unpacked. Whether the bytes open as an archive is a separate question. */
  lemma UnzipOriginal(directory: string, id: nat, data: seq<byte>, unzip: bool)
    ensures ShouldUnzip(Original, data, unzip, Destination(directory, Original, id).dataFile)
            <==> unzip && |data| > 0
  {
    var name := Destination(directory, Original, id).dataFile;
    DataFileShape(directory, Original, id);
    assert LastThree(name) == "zip";
    assert Lower("zip") == "zip";
  }
}

=== FILE: ticket.dfy ===
/** Extraction of the login ticket from the credentials response and the
    post-authentication URL built from it (gcexport.py:46, 92-101).

    The source matches the response text against `.*\?ticket=([-\w]+)\";.*`
    with DOTALL: the pattern is anchored at the start, the leading `.*` is
    greedy, so the match that wins is the one whose `?ticket=` starts LAST;
    the group is then the whole run of ticket characters after it, and that
    run must be followed by `";`. `\w` is taken as the ASCII word characters. */
module Ticket {
  import opened Common

  const TicketMarker := "?ticket="
  const PostAuthUrlBase := "https://connect.garmin.com/modern/activities?"

  /** `[-\w]` over ASCII. */
  predicate IsTicketChar(c: char)
  {
    c == '-' || c == '_' || ('a' <= c <= 'z') || ('A' <= c <= 'Z') || ('0' <= c <= '9')
  }

  /** The pattern matches `s` with its group spanning `s[p + 8 .. p + 8 + k]`:
      `?ticket=` at `p`, then `k > 0` ticket characters, then `";`. */
  predicate FragmentAt(s: string, p: int, k: int)
  {
    && 0 <= p && 0 < k && p + 8 + k + 2 <= |s|
    && s[p..p + 8] == TicketMarker
    && (forall j :: p + 8 <= j < p + 8 + k ==> IsTicketChar(s[j]))
    && s[p + 8 + k] == '"' && s[p + 8 + k + 1] == ';'
  }

  /** The match the regular expression engine reports: the fragment whose
      `?ticket=` starts last. */
  ghost predicate RegexMatch(s: string, p: int, k: int)
  {
    FragmentAt(s, p, k) && forall q, k' :: p < q ==> !FragmentAt(s, q, k')
  }

  /** Length of the run of ticket characters that starts at `i`. */
  function RunLength(s: string, i: nat): (k: nat)
    requires i <= |s|
    ensures i + k <= |s|
    ensures forall j :: i <= j < i + k ==> IsTicketChar(s[j])
    ensures i + k < |s| ==> !IsTicketChar(s[i + k])
    decreases |s| - i
  {
    if i < |s| && IsTicketChar(s[i]) then 1 + RunLength(s, i + 1) else 0
  }

  /** A fragment's group is the whole run of ticket characters after `?ticket=`,
      so at most one group length fits any position. */
  lemma FragmentIsMaximalRun(s: string, p: int, k: int)
    requires FragmentAt(s, p, k)
    ensures k == RunLength(s, p + 8)
  {
  }

  /** The ticket whose `?ticket=` starts exactly at `p`, if the pattern fits there. */
  function TicketAt(s: string, p: nat): (r: Option<string>)
    ensures r.Some? ==> FragmentAt(s, p, |r.value|) && r.value == s[p + 8..p + 8 + |r.value|]
    ensures r.None? ==> forall k :: !FragmentAt(s, p, k)
  {
    if p + 8 <= |s| && s[p..p + 8] == TicketMarker then
      var k := RunLength(s, p + 8);
      if 0 < k && p + 8 + k + 2 <= |s| && s[p + 8 + k] == '"' && s[p + 8 + k + 1] == ';' then
        Some(s[p + 8..p + 8 + k])
      else
        assert forall k' :: FragmentAt(s, p, k') ==> k' == k by {
          forall k' | FragmentAt(s, p, k') ensures k' == k { FragmentIsMaximalRun(s, p, k'); }
        }
        None
    else
      None
  }

  /** The last start position below `n` at which the pattern fits: the position
      the backtracking of the greedy `.*` settles on. */
  function LastFragment(s: string, n: nat): (r: Option<nat>)
    ensures r.Some? ==> r.value < n && TicketAt(s, r.value).Some?
    ensures r.Some? ==> forall q :: r.value < q < n ==> TicketAt(s, q).None?
    ensures r.None? ==> forall q :: 0 <= q < n ==> TicketAt(s, q).None?
  {
    if n == 0 then None
    else if TicketAt(s, n - 1).Some? then Some(n - 1)
    else LastFragment(s, n - 1)
  }

  /** `pattern.match(response)`, giving group 1 when it matches. */
  function ExtractTicket(response: string): (r: Option<string>)
    ensures r.None? <==> forall p, k :: !FragmentAt(response, p, k)
    ensures r.Some? ==> exists p :: RegexMatch(response, p, |r.value|) && r.value == response[p + 8..p + 8 + |r.value|]
    ensures r.Some? ==> |r.value| > 0 && forall i :: 0 <= i < |r.value| ==> IsTicketChar(r.value[i])
  {
    match LastFragment(response, |response|)
    case None =>
      assert forall p, k :: !FragmentAt(response, p, k) by {
        forall p, k ensures !FragmentAt(response, p, k) {
          if 0 <= p < |response| { assert TicketAt(response, p).None?; }
        }
      }
      None
    case Some(p) =>
      var t := TicketAt(response, p).value;
      assert RegexMatch(response, p, |t|) by {
        forall q, k | p < q ensures !FragmentAt(response, q, k) {
          if q < |response| { assert TicketAt(response, q).None?; }
        }
      }
      Some(t)
  }

  /** The match is unique: at most one fragment is the one the engine reports. */
  lemma RegexMatchUnique(s: string, p1: int, k1: int, p2: int, k2: int)
    requires RegexMatch(s, p1, k1) && RegexMatch(s, p2, k2)
    ensures p1 == p2 && k1 == k2
  {
    FragmentIsMaximalRun(s, p1, k1);
    FragmentIsMaximalRun(s, p2, k2);
  }

  /** The URL that completes the login with the extracted ticket. */
  function PostAuthUrl(ticket: string): (url: string)
    ensures |url| == |PostAuthUrlBase| + 7 + |ticket|
    ensures url[..|PostAuthUrlBase|] == PostAuthUrlBase && url[|PostAuthUrlBase|..|PostAuthUrlBase| + 7] == "ticket="
    ensures url[|PostAuthUrlBase| + 7..] == ticket
  {
    PostAuthUrlBase + "ticket=" + ticket
  }

  /** When the response holds one fragment and no `?` after it, that fragment's
      group is the ticket. */
  lemma SingleFragment(s: string, p: int, k: int)
    requires FragmentAt(s, p, k)
    requires forall q :: p < q < |s| ==> s[q] != '?'
    ensures ExtractTicket(s) == Some(s[p + 8..p + 8 + k])
  {
    assert RegexMatch(s, p, k) by {
      forall q, k' | p < q ensures !FragmentAt(s, q, k') {
        if 0 <= q && q + 8 <= |s| { assert s[q..q + 8][0] == s[q]; }
      }
    }
    var t := ExtractTicket(s).value;
    var p' :| RegexMatch(s, p', |t|) && t == s[p' + 8..p' + 8 + |t|];
    RegexMatchUnique(s, p, k, p', |t|);
  }

  /** A response carrying `?ticket=ABC-123";` yields exactly that ticket. */
  lemma TicketExample(s: string)
    requires s == "x?ticket=ABC-123\";y"
    ensures ExtractTicket(s) == Some("ABC-123")
  {
    assert FragmentAt(s, 1, 7) by { assert s[1..9] == TicketMarker; }
    assert forall q :: 1 < q < |s| ==> s[q] != '?';
    SingleFragment(s, 1, 7);
    assert s[9..16] == "ABC-123";
  }

  /** A response without any `?` yields no ticket. */
  lemma NoMarkNoTicket(s: string)
    requires forall q :: 0 <= q < |s| ==> s[q] != '?'
    ensures ExtractTicket(s) == None
  {
    forall q, k ensures !FragmentAt(s, q, k) {
      if 0 <= q && q + 8 <= |s| {
        assert s[q..q + 8][0] == s[q];
      }
    }
  }

  /** The fixture without a ticket fails to log in. */
  lemma NoTicketExample(s: string)
    requires s == "<html>no ticket here</html>"
    ensures ExtractTicket(s) == None
  {
    NoMarkNoTicket(s);
  }
}
